=== FILE: README.md ===
# Retro motocross racer: a Dafny model of the race core

This project models the logic of a browser motocross game in the Excitebike
style. Bikes race along a four-lane track made of segments. Each segment
allows a range of lanes and has a vertical offset. Obstacles on the track
slow a bike down or launch it into a jump. In the air, a bike can flip for
points, and a badly angled landing wipes it out. A turbo heats the engine,
and an overheated engine crashes the bike. Four AI riders share the track.
In an online game, one peer (the host) builds the track and runs the AI
riders; the other peer (the joiner) receives them. Each peer simulates its
own bike and sends snapshots of it. Between stages, the garage sells engine,
cooling and turbo tiers for the points banked from finished stages.

The model has these modules:

- `Constants`, `Types`: the game's constants, the upgrade table and the records
  (bike, AI rider, obstacle, track segment, peer message).
- `Layout`: the lane lookup. A binary search finds the segment that governs a
  position along the track.
- `TrackGen`: the track generator. It builds segments, obstacles and the AI
  roster from an injected random stream.
- `Physics`: each step of one bike's tick, as a function on bike values. The
  steps are lane intent, steering, propulsion and heat, advance and score,
  flight and landing, and obstacle effects.
- `Collision`: the collision pass between one bike and every other racer. A
  method with two loops implements it, and a closed form specifies it.
- `NpcControl`: the AI riders' controller.
- `Tick`: one bike's whole tick as a function of the race state, and what one
  turn of the per-frame pass over the bikes means.
- `Race`: the race state as a class. Its fields are the segments, obstacles,
  AI riders, bikes, held keys, frame counter and random-stream cursor. Its
  methods are the game canvas's handlers: key events, the upgrades effect,
  track generation, the peer message handler, a bike's tick and the frame
  update. Each method is proved against the functions above.
- `Garage`: the garage's purchase rule and the bike preview.
- `AppState`: the application shell as a class. It has the screen, the mode,
  the stage, the results, the peer link, the points and the upgrades, with
  one method per handler.

Numbers are modelled as follows:

- Positions and speeds are `real`. `Math.floor` is `.Floor`, and
  `Math.round(v)` is `floor(v + 0.5)`.
- The remainder by 2π takes the sign of the dividend, as JavaScript's `%` does.
- π is the real 3.141592653589793. The landing-angle counterexamples of the Findings use 3 < π < 3.42; everything else uses only π > 0.
- `Math.random()` is a stream `rng: nat -> real` whose draws lie in [0, 1).
  A cursor counts the draws used so far.

## Model

| member | source | states |
|---|---|---|
| Constants.UpgradeTier | constants.ts:53-68 | A tier costs nothing exactly when it is the stock tier (index 0). Prices are nonnegative. Speed, acceleration and turbo multipliers are at least 1. The heat multiplier is in (0, 1]. |
| Constants.TiersImprove | constants.ts:53-68 | Within a line, a higher tier costs strictly more and strictly improves that line's own multiplier. |
| Types.Clamp | components/GameCanvas.tsx:378 | `Math.max(lo, Math.min(hi, v))`: the result is in [lo, hi] when that range is not empty. A value already in range is kept. An empty range yields lo. |
| Types.Round | components/GameCanvas.tsx:381 | Math.round returns the integer within half a unit of v, with halves rounded up. |
| Types.ScaledDrawInRange | components/GameCanvas.tsx:208 | `floor(draw * n)` for a draw in [0,1) picks one of 0 .. n-1. |
| Layout.LastNotAfter | components/GameCanvas.tsx:175-190 | Gives the index of the last segment starting at or before x, with every later segment starting after x, or -1 when there is none. |
| Layout.LayoutAt | components/GameCanvas.tsx:175-190 | The reference lookup: the default full-width layout on an empty track, segments[0] before every segment, otherwise the last segment starting at or before x. |
| Layout.LayoutAtIsElement | components/GameCanvas.tsx:177-179 | The looked-up layout is the full-width default `{0,0,3,0}` on an empty track, and otherwise one of the segments. |
| Layout.SegmentGoverns | components/GameCanvas.tsx:175-190 | On a sorted track, segment i governs exactly the positions from its own start up to the next segment's start. |
| Layout.BeforeFirstSegment | components/GameCanvas.tsx:179 | On a sorted track, a position before every segment resolves to the first segment. |
| Layout.GetTrackLayoutAt | components/GameCanvas.tsx:175-190 | The binary search returns the default on an empty list and always returns a segment of the list. On a sorted list, its answer is the last segment starting at or before x, or the first segment. |
| TrackGen.DrawObstacleType | components/GameCanvas.tsx:226-232 | Day and dusk: one draw into the uniform kind table. Storm, when the first draw exceeds 0.5: water or mud, water exactly when the second draw exceeds 0.5. Night, when the first draw exceeds 0.4: a hurdle, after one draw. A storm or night bias that misses: the uniform table on the second draw. |
| TrackGen.ObstacleTypeAt | types.ts:73-82 | The kind at index i of the enumeration's value list, in declaration order: bump, ramp, mud, big ramp, oil slick, hurdle, water, gravel. |
| TrackGen.NextSegment | components/GameCanvas.tsx:205-216 | A new segment starts at the current x, with lanes in 0..3 and offset in [-20, 20]. A kind draw below half the stage's complexity narrows it to the stage's span, starting at floor(draw·(4 - span)), with one draw. A draw in the upper half of the band keeps full width and moves the offset by 10, up exactly when the next draw exceeds 0.5, clamped to [-20, 20]. Any other draw keeps full width and the offset and draws nothing. |
| TrackGen.SortedExtend | components/GameCanvas.tsx:216-217 | Appending a segment that starts after all the others keeps the list sorted. |
| TrackGen.BuildSegments | components/GameCanvas.tsx:195-218 | The first segment is `{0,0,3,0}` and the second starts at 1000. Each later start is 400 to 1200 past the previous one. The list is sorted, every segment is well shaped, and the last one starts within 1200 of the world length plus 2000. |
| TrackGen.PlaceObstacles | components/GameCanvas.tsx:220-237 | The first obstacle is at 600. Gaps are the stage gap (180 - 15·stage) plus less than 400. Every obstacle lies before the world length, in a lane its segment allows. |
| TrackGen.BuildRoster | components/GameCanvas.tsx:239-249 | Exactly four riders are built. Rider i has id, lane and target lane i, x = 200 + 120i, speed 3.5 and a base speed in [3.5 + 0.3·stage, 4.0 + 0.3·stage). |
| TrackGen.GenerateTrack | components/GameCanvas.tsx:195-250 | The three lists meet all the promises above for stage indexes 0..3. Both loops terminate. |
| Physics.ControlsFor | components/GameCanvas.tsx:353-359 | Bike 0 uses the arrows with Z/X and any other bike uses W/A/S/D with F/G. Up and down are distinct keys, and so are left and right. |
| Physics.UpFires | components/GameCanvas.tsx:371-373 | The up key fires when held on a running, grounded bike whose target lane is above the layout's lowest lane. |
| Physics.DownFires | components/GameCanvas.tsx:374-376 | The down key fires when held on a running, grounded bike whose target lane, after any up move, is below the layout's highest lane. |
| Physics.CreatePlayer | components/GameCanvas.tsx:65-87 | A new bike is at x = 20, on lane id mod 4 at that lane's centre, stopped, cold, upright and with nothing counted. It carries the given upgrades or stock ones, and it satisfies the bike invariant. |
| Physics.LaneIntent | components/GameCanvas.tsx:370-378 | Only the target lane changes, and only up or down keys are consumed. The up key is consumed exactly when it fires: held, the bike upright on the ground, and a lane above allowed. The down key is consumed exactly when it fires: held, the bike upright on the ground, and a lane below allowed after the up key's move. A crashed or airborne bike consumes nothing. The target lane ends within the layout's bounds, moved by the honoured presses. |
| Physics.Steer | components/GameCanvas.tsx:379-381 | The row closes the responsiveness share (0.18, or 0.12 in a storm) of its distance to the target lane's centre, so (1 - responsiveness) of the distance remains, and it never moves away from it. The lane is the one whose centre is nearest the new row. |
| Physics.SpeedCeiling | components/GameCanvas.tsx:417 | The cap is the turbo speed times the turbo multiplier when turbo is held, else the top speed times the engine multiplier. It is never below the top speed. |
| Physics.TurboHeat | components/GameCanvas.tsx:401 | A turbo tick adds positive heat, at most 0.22·1.3. |
| Physics.Thrust | components/GameCanvas.tsx:399-410 | Throttle and turbo always add positive speed. |
| Physics.Overheat | components/GameCanvas.tsx:403-406 | Boiling over sets crashed, the timer to the overheat penalty, counts a crash and resets the combo. |
| Physics.Propel | components/GameCanvas.tsx:386-419 | A crashed bike: speed ×0.94 and timer - 1, with count and combo kept. A running bike: speed in [0, cap], and it crashes here only by overheating under turbo below MAX_HEAT, with count + 1 and combo 1. The crash count never falls, the combo stays at least 1, and heat and speed stay nonnegative. Only speed, heat and the crash fields change. |
| Physics.Coast | components/GameCanvas.tsx:386-390 | A crashed bike: speed ×0.94, timer - 1. It is still crashed exactly while the timer is positive, and it recovers with heat 0 when the timer reaches 0. |
| Physics.CapSpeed | components/GameCanvas.tsx:418 | The speed lies in [0, ceiling]: unchanged inside it, the ceiling above it, 0 below a standstill. |
| Physics.ThrottleSpeed | components/GameCanvas.tsx:399-418 | Turbo below MAX_HEAT adds exactly the 1.5 thrust, up to the ceiling. Otherwise, including turbo at or above MAX_HEAT, gas adds exactly the plain thrust, up to the ceiling. With neither, friction (×0.6 in a storm) is taken off, down to 0, and speed never rises. Turbo at MAX_HEAT never gains more than the plain thrust. |
| Physics.ThrottleHeat | components/GameCanvas.tsx:399-415 | Turbo below MAX_HEAT adds exactly the turbo heat. Otherwise gas cools by 0.07 and coasting by 0.14, stopping at 0. Heat never goes negative. |
| Physics.Throttle | components/GameCanvas.tsx:391-419 | A running bike takes the throttle's speed and heat. Reaching MAX_HEAT under turbo is an overheat crash: timer 160, count + 1, combo 1. Otherwise nothing but speed and heat changes. |
| Physics.Advance | components/GameCanvas.tsx:420-421 | x grows by the speed and the score becomes floor(x/10). |
| Physics.Fly | components/GameCanvas.tsx:430-459 | Gravity acts. Left takes 0.022 off the spin and right adds 0.022; the spin is then damped ×0.98 while a key is held, else ×0.85. While turning, the rotation grows by the spin. With no key held, it first closes 8% of its gap to the nearest whole turn. The total rotation grows by exactly the absolute spin, so it never decreases. The flip count never decreases and stays floor(total/2π). |
| Physics.Land | components/GameCanvas.tsx:461-484 | The landing the tick uses, judged by the angle reduced into (-π, π]. Beyond 0.85 from upright it wipes out: timer 75, speed 0, count + 1, combo 1, whatever the flips. Otherwise the bike is set upright, and a landing with flips raises the combo once and adds flips·500·combo to the score. A landing without flips changes neither. Spin, total rotation and flips are zero after any landing. |
| Physics.Touchdown | components/GameCanvas.tsx:461-484 | The landing for a given angle: beyond 0.85 a wipeout with timer 75, speed 0, count + 1 and combo 1; otherwise upright, with the flip bonus flips·500·combo after the combo rises. Spin, total rotation and flips are zeroed either way, and position, heat and upgrades are kept. |
| Physics.LandAsWritten | components/GameCanvas.tsx:464-469 | The landing as the code writes it, judged by the angle the two truncating remainders give: beyond 0.85 a wipeout with timer 75, speed 0, count + 1 and combo 1; otherwise upright with nothing else about the crash changed. |
| Physics.LandingsAgreeForward | components/GameCanvas.tsx:464-484 | For rotations ≥ 0, the written landing and the tick's landing give the same bike. |
| Physics.BackwardLandingMisjudged | components/GameCanvas.tsx:464-469 | A running bike landing at rotation -6.0 wipes out as written (count + 1) and lands clean and upright in the tick. |
| Physics.Ground | components/GameCanvas.tsx:485-489 | On the ground, tilt decays by 0.82, spin stops and height is capped at 0. |
| Physics.AirStep | components/GameCanvas.tsx:429-489 | A bike in the air flies and, on touchdown, lands with the corrected landing `Land`; a bike on the ground takes the ground step. |
| Physics.TurnRem | components/GameCanvas.tsx:465 | JavaScript's `% 2π`: the remainder has the dividend's sign and is less than a turn in size. |
| Physics.WholeTurns | components/GameCanvas.tsx:465 | The quotient by 2π truncated toward zero. |
| Physics.NormalizeAngleAsWritten | components/GameCanvas.tsx:465-466 | The landing angle computed with two truncating remainders, exactly as the code writes it. |
| Physics.TurnsAbovePi | components/GameCanvas.tsx:466 | The whole turns the intended normalisation removes. |
| Physics.NormalizeAngle | components/GameCanvas.tsx:465-466 | The landing angle reduced by whole turns into (-π, π]. |
| Physics.BackwardFlipMisjudged | components/GameCanvas.tsx:465-468 | For rotation -6.0, 0.28 rad from upright, the code's angle is -6.0 and a wipeout. The intended angle is -6 + 2π, which is within tolerance. |
| Physics.NormalizationsAgreeForward | components/GameCanvas.tsx:465-468 | For rotations ≥ 0, the code's angle equals the intended one, or is -π where the intended one is π. Both give the same landing decision. |
| Physics.NegativeAngleAsWritten | components/GameCanvas.tsx:465-466 | As written, a rotation in (-2π, 0] is its own landing angle, so one at or beyond -π stays at or below -π. |
| Physics.ObstacleEffect | components/GameCanvas.tsx:495-544 | Mud: speed ×0.6, z = -1.5. Water: ×0.55. Oil: ×0.98 plus a spin kick; a lane nudge only within bounds. Gravel: ×0.9, heat + 0.06. Bump, ramp and big ramp: a jump at 0.75, 1 or 1.6 ·JUMP_FORCE. Hurdle: a hop at 0.55 ·JUMP_FORCE above speed 2.2, else speed ×0.35. Speed never rises or goes negative. Position, crash state, counters, score and upgrades are untouched. |
| Physics.ObstacleActs | components/GameCanvas.tsx:492-494 | An obstacle acts on a bike within 10 along and 7 across its lane row, on the ground and not crashed. |
| Physics.LaunchFactor | components/GameCanvas.tsx:518-532 | The launch speed in JUMP_FORCE units: bump 0.75, ramp 1, big ramp 1.6. |
| Physics.Launch | components/GameCanvas.tsx:518-532 | A launch sets the bike airborne with the given upward speed and changes nothing else. |
| Physics.OilSlip | components/GameCanvas.tsx:506-508 | An oil slick uses two draws, or three when a lane nudge (chance 5%) is drawn. The nudge is one lane up or down. |
| Physics.ObstacleStep | components/GameCanvas.tsx:492-494 | An obstacle acts only when within 10 along the track and 7 across, measured from its own segment's lane row, on a bike that is neither airborne nor crashed. Otherwise nothing changes and nothing is drawn. Only an acting oil slick draws, two or three times. |
| Physics.ObstaclePass | components/GameCanvas.tsx:491-546 | The obstacles' forEach: the given step applied to each obstacle in list order, threading the draw cursor. |
| Physics.RuleAdvances | components/GameCanvas.tsx:491-546 | One obstacle never rewinds the draw cursor and never touches the upgrades. |
| Physics.RuleKeepsOk | components/GameCanvas.tsx:491-546 | One obstacle keeps the bike invariant. |
| Physics.RuleSkipsAloft | components/GameCanvas.tsx:494 | One obstacle leaves a bike in the air or crashed unchanged and draws nothing. |
| Physics.RuleFrames | components/GameCanvas.tsx:495-544 | One obstacle never changes position, crash state, count, combo, score or upgrades. Speed stays in [0, old speed], and a target lane within the layout stays within it. |
| Physics.ObstaclePassAdvances | components/GameCanvas.tsx:491-546 | The forEach over obstacles, with steps that only advance the cursor and keep the upgrades, does the same. |
| Physics.ObstaclePassKeepsOk | components/GameCanvas.tsx:491-546 | The forEach over obstacles, with steps that keep the bike invariant, keeps it. |
| Physics.NoObstacleActsAloft | components/GameCanvas.tsx:494 | With steps that skip airborne and crashed bikes, such a bike passes every obstacle unchanged and draws nothing. |
| Physics.JumpEndsObstaclePass | components/GameCanvas.tsx:494 | With steps that skip airborne bikes, once an obstacle launches the bike, the later obstacles in the same pass leave it unchanged. |
| Physics.ObstaclePassFrame | components/GameCanvas.tsx:491-546 | With steps that keep that frame, the pass never changes position, crash state, count, combo, score or upgrades. Speed stays in [0, old speed], and the target lane stays within the layout. |
| Collision.Bonk | components/GameCanvas.tsx:310-315 | Each rear-end hit crashes the bike with timer 90, speed 0 and combo 1, and counts once. With no hits the bike is unchanged. |
| Collision.Overlap | components/GameCanvas.tsx:303-307 | Two racers overlap when under 14 apart along the track, 12 across and 8 in height. |
| Collision.RearEndsPlayer | components/GameCanvas.tsx:301-311 | A running bike that overlaps and is strictly ahead: the bike ran into its back. |
| Collision.BlocksPlayer | components/GameCanvas.tsx:301-327 | A running bike that overlaps and is level or behind: the bike blocked it. |
| Collision.RearEndsNpc | components/GameCanvas.tsx:301-311 | An AI rider that is running, overlaps and is strictly ahead. |
| Collision.BlocksNpc | components/GameCanvas.tsx:301-335 | An AI rider that is running, overlaps and is level or behind. |
| Collision.PlayerRearHits | components/GameCanvas.tsx:300-319 | The rear-end hits against the first n bikes, the bike itself excluded; at most n. |
| Collision.NpcRearHits | components/GameCanvas.tsx:300-319 | The rear-end hits against the first n AI riders; at most n. |
| Collision.FirstNpc | components/GameCanvas.tsx:330 | `find` by id gives the first rider with that id, or none. |
| Collision.ResolvePlayer | components/GameCanvas.tsx:300-328 | One other bike: a running bike ahead that overlaps crashes this bike once more, and one level or behind is knocked down. Overlap is judged against this bike's live state, whose position crashes never change. |
| Collision.ResolvePlayers | components/GameCanvas.tsx:300-328 | The loop over the other bikes crashes each bike that was blocked (timer 90, speed 0, count + 1, combo kept) and counts a rear-end for each bike ahead. |
| Collision.ResolveNpc | components/GameCanvas.tsx:300-336 | One rider: a running rider ahead that overlaps crashes this bike once more, and one level or behind has the first rider with its id knocked down. |
| Collision.ResolveNpcs | components/GameCanvas.tsx:300-336 | The loop over the riders knocks down, through `find`, each rider that was blocked (timer 110, speed 0, no count) and counts a rear-end for each rider ahead. |
| Collision.CheckEntityCollisions | components/GameCanvas.tsx:292-344 | A crashed bike changes nothing. Otherwise, with candidates judged on the start-of-pass snapshot and no early exit, the bike suffers one crash per racer it ran into from behind (dx > 0), and every racer level or behind (dx ≤ 0) is knocked down. |
| Collision.Collide | components/GameCanvas.tsx:292-344 | The closed form of the pass keeps the number of bikes and riders and every bike's upgrades. |
| Collision.CollideMatches | components/GameCanvas.tsx:292-344 | The loop result is the closed form of the whole pass. |
| Collision.CollideOutcome | components/GameCanvas.tsx:300-343 | The bike ends crashed exactly when it was crashed or rear-ended someone. No racer moves, gains speed or changes upgrades, heat or jump state. Crash counts never fall and combos stay at least 1. |
| Collision.NpcTargetedWitness | components/GameCanvas.tsx:329-335 | A rider knocked down was the first with the id of some running, overlapping rider level with or behind the bike. |
| Collision.DistinctIdsBlockThemselves | components/GameCanvas.tsx:330 | With distinct rider ids, every blocked rider is itself the one knocked down. |
| Collision.NpcTargetedReach | components/GameCanvas.tsx:300 | A knock-down decided early in the pass is kept by the rest of it. |
| NpcControl.Recycle | components/GameCanvas.tsx:605-611 | A rider more than 150 behind the camera reappears 150 to 350 beyond the view's right edge, on a lane in 0..3, running at base speed, not crashed and at height 0, using two draws. Any other rider is untouched. |
| NpcControl.ScaledDrawInRangeWhenUnit | components/GameCanvas.tsx:609 | A unit draw times four picks a lane in 0..3. |
| NpcControl.Recover | components/GameCanvas.tsx:613-615 | A crashed rider slows by 10% and counts down. When the timer runs out, it restarts at 40% of base speed. |
| NpcControl.TargetSpeed | components/GameCanvas.tsx:617-623 | The target is the main bike's speed + 1.2 when the rider is more than 150 behind it, 70% of base when more than 300 ahead, else the base speed. |
| NpcControl.LaneChange | components/GameCanvas.tsx:626-634 | Lanes change only on frames that are multiples of 120 and only for grounded riders. A change is one lane, within bounds, and takes at most two draws. |
| NpcControl.LaneChangeChoice | components/GameCanvas.tsx:626-634 | On such a frame a grounded rider takes one draw. A draw above 0.6 takes a second draw that picks the side, down exactly when it exceeds 0.5. The rider moves one lane to that side when the lane is allowed, and otherwise stays. A draw of at most 0.6 keeps the lane. |
| NpcControl.NpcFly | components/GameCanvas.tsx:642 | An airborne rider falls under gravity and is grounded at touchdown. |
| NpcControl.Drive | components/GameCanvas.tsx:616-642 | Speed closes 5% of its gap to the target. The rider advances by the new speed. The target lane ends within bounds, at most one lane from an in-bounds start, and only the clamp applies off period. The row closes 8% of its gap to the lane centre. |
| NpcControl.DriveSteersAndFalls | components/GameCanvas.tsx:636-642 | After driving, the rider's lane is Math.round of its new row offset, the lane whose centre is nearest the row. Its height, vertical speed and jump state are NpcFly applied to the driven rider, so a grounded rider stays grounded with height and vertical speed unchanged. |
| NpcControl.RampPass | components/GameCanvas.tsx:644-651 | An airborne rider is untouched. Otherwise the result is the rider, or the rider launched by one of the obstacles. |
| NpcControl.RampUnder | components/GameCanvas.tsx:644-645 | A bump, ramp or big ramp within 5 along the track on the rider's lane lifts a grounded rider. |
| NpcControl.NpcLaunch | components/GameCanvas.tsx:646-647 | The rider takes off at 1.4 JUMP_FORCE from a big ramp, JUMP_FORCE otherwise. |
| NpcControl.FirstRampDecides | components/GameCanvas.tsx:644-651 | The first ramp, big ramp or bump under a grounded rider decides its launch (1.4 or 1.0 JUMP_FORCE); later ones are skipped. |
| NpcControl.NoRampBefore | components/GameCanvas.tsx:645 | With no ramp under it, a grounded rider passes the obstacles unchanged. |
| NpcControl.NpcStep | components/GameCanvas.tsx:603-653 | One rider's tick keeps its id and base speed and uses at most four draws. |
| NpcControl.CrashedRiderStays | components/GameCanvas.tsx:613-615 | A crashed rider that is not recycled does not advance; it only recovers. |
| NpcControl.RunningRiderStaysInBounds | components/GameCanvas.tsx:626-636 | A running rider's target lane ends in the range of the segment it started on. Off period, it is just the clamped old target. |
| NpcControl.RampPassKeepsLane | components/GameCanvas.tsx:644-651 | The ramp pass changes only the jump state. |
| NpcControl.RiderStepKeepsRoster | components/GameCanvas.tsx:603-653 | One rider's tick keeps its id and base speed and never rewinds the draw cursor. |
| NpcControl.NpcPass | components/GameCanvas.tsx:603-653 | The forEach over riders with a given step gives one result per rider. |
| NpcControl.NpcPassKeepsRoster | components/GameCanvas.tsx:603-653 | With steps that keep ids and base speeds and never rewind the cursor, the pass keeps every rider's id and base speed in place and only advances the cursor. |
| NpcControl.NpcPassStable | components/GameCanvas.tsx:603-653 | Riders later in the list never change the result of an earlier rider. |
| NpcControl.NpcPassElementwise | components/GameCanvas.tsx:603-653 | Each rider's result is its own tick, started from the cursor left by the riders before it. |
| Tick.Results | components/GameCanvas.tsx:426 | The level-complete report has one entry per bike, with its score and crash count, in order. |
| Tick.IsRemote | components/GameCanvas.tsx:347-351 | Online with a link, bike 1 on the host and bike 0 on the joiner belong to the peer and are not simulated. |
| Tick.Ride | components/GameCanvas.tsx:370-421 | The ground steps before the collision pass consume only keys that were held and keep the upgrades. |
| Tick.Collided | components/GameCanvas.tsx:370-423 | The ride and the collision pass keep the number of bikes and riders and every bike's upgrades. They only release keys and draw nothing. |
| Tick.PlayerTick | components/GameCanvas.tsx:352-546 | A bike's tick keeps the number of bikes and riders and every bike's upgrades. It only releases keys, and it only advances the draw cursor. |
| Tick.StepsKeepOk | components/GameCanvas.tsx:370-489 | Lane intent, steering, propulsion, advance and the air/ground step each keep the bike invariant: speed, heat and total rotation nonnegative, combo ≥ 1, flips = floor(total/2π), no rotation on the ground. |
| Tick.CollidedKeepsOk | components/GameCanvas.tsx:370-423 | The ride and the collision pass keep the invariant of every bike that had it. |
| Tick.PlayerTickKeepsOk | components/GameCanvas.tsx:346-551 | A bike's whole tick keeps the invariant of every bike that had it. |
| Race.MainIndex | components/GameCanvas.tsx:597 | The camera follows bike 1 exactly on an online game that is not the host, else bike 0. |
| Race.RunsNpcs | components/GameCanvas.tsx:602 | AI riders move offline and on the host only. |
| Race.IsJoiner | components/GameCanvas.tsx:193 | Only an online joiner with a link leaves track building to the host. |
| Race.TakesUpgrades | components/GameCanvas.tsx:109 | The garage's upgrades go to every bike offline, and online to bike 0 on the host and bike 1 otherwise. |
| Race.RemoteIndex | components/GameCanvas.tsx:270 | The peer's bike is bike 1 on the host and bike 0 on the joiner, and updatePlayer never simulates that bike. |
| Race.RidersAfter | components/GameCanvas.tsx:600-654 | Offline or on the host, the riders are the rider pass relative to the camera bike. On the joiner, riders and cursor are unchanged. There is one rider per rider before. |
| Race.StartingGrid | components/GameCanvas.tsx:90-96 | Single-player has one bike and every other mode has two. Bike i is a fresh bike with id i. |
| Race.RaceState.constructor | components/GameCanvas.tsx:88-104 | A mounted race has its starting grid, no track, no riders, no keys and frame 0. |
| Race.RaceState.KeyDown | components/GameCanvas.tsx:281 | A key press adds the code to the held keys and changes nothing else. |
| Race.RaceState.KeyUp | components/GameCanvas.tsx:282 | A key release removes the code and changes nothing else. |
| Race.RaceState.SyncUpgrades | components/GameCanvas.tsx:106-120 | Only the local bikes get the new upgrades: every bike offline, bike 0 on the host, bike 1 otherwise. Online with a peer, a snapshot of the own bike is sent. The race invariant is kept. |
| Race.RaceState.GenerateTrack | components/GameCanvas.tsx:192-259 | An online joiner changes nothing. Anyone else gets a well-formed track, obstacles and four-rider roster. The message is INIT_TRACK with those three lists exactly when the game is online and hosting. |
| Race.RaceState.HandleData | components/GameCanvas.tsx:263-277 | INIT_TRACK replaces segments, obstacles and riders verbatim. SYNC_STATE overwrites only the peer's bike, when it exists. The race invariant is kept. |
| Race.RaceState.ApplyObstacles | components/GameCanvas.tsx:491-546 | The forEach over obstacles computes exactly the obstacle pass from the current draw cursor. |
| Race.RaceState.HitObstacle | components/GameCanvas.tsx:492-545 | One obstacle's in-place effect is exactly the obstacle step, from the current draw. |
| Race.RaceState.RideAndCollide | components/GameCanvas.tsx:370-423 | The ground steps and checkEntityCollisions, in place, leave exactly the first half of the bike-tick function. Track, obstacles, frame and cursor are untouched. |
| Race.RaceState.RunBike | components/GameCanvas.tsx:352-546 | A simulated bike's tick, in place, leaves exactly the state and report of the bike-tick function. |
| Race.RaceState.UpdatePlayer | components/GameCanvas.tsx:346-551 | Outside play, or on the peer's bike, nothing changes. Otherwise the turn is taken as specified, and a SYNC_STATE snapshot is sent on even frames of an online game. The race invariant is kept. |
| Race.RaceState.NpcRamps | components/GameCanvas.tsx:644-651 | The forEach over obstacles computes exactly the ramp pass. |
| Race.RaceState.MoveRider | components/GameCanvas.tsx:604-652 | One rider's in-place update is exactly that rider's tick. |
| Race.RaceState.UpdateNpcs | components/GameCanvas.tsx:602-654 | The forEach over riders leaves exactly the rider pass and its draw cursor, and touches nothing else. |
| Race.RaceState.MoveRiders | components/GameCanvas.tsx:600-654 | The rider block leaves exactly the riders and cursor that the rider pass gives, moving only offline or on the host. Bikes, keys, track and frame are untouched. |
| Race.RaceState.TakeTurns | components/GameCanvas.tsx:656 | The forEach over bikes: bike i takes its turn from trace state i to trace state i + 1, the trace starts at the state before and ends at the state after. Track, obstacles and frame are untouched, and the race invariant is kept. |
| Race.RaceState.Tick | components/GameCanvas.tsx:587-656 | Outside play, or with no bikes, nothing changes. Otherwise the frame advances. With no camera bike nothing else changes. Otherwise the riders move (offline or hosting only), from which state every bike takes its turn in order. The race invariant is kept. |
| Garage.WithLevel | App.tsx:77 | The named line is set to the tier; the other lines and the paint are kept. |
| Garage.IsOwned | components/Garage.tsx:85 | A tier is owned when the line's level reaches it. |
| Garage.IsNext | components/Garage.tsx:86 | A tier is next when it is exactly one above the line's level. |
| Garage.CanAfford | components/Garage.tsx:87 | The points cover the tier's listed cost. |
| Garage.TierClick | components/Garage.tsx:83-112 | A click buys exactly the clicked tier at its listed price if and only if it is next in line and affordable. |
| Garage.OwnedIsNeverNext | components/Garage.tsx:85-86 | A tier is never both owned and next in line. |
| Garage.PurchaseStepsOneTier | components/Garage.tsx:105-108 | A purchase raises its line by exactly one tier, to at most the last tier of the table. It costs something and leaves the points nonnegative. |
| Garage.PurchaseOwnsTier | components/Garage.tsx:85-86 | After a purchase, the tier is owned, the following tier (if offered) is next, and the other lines are unchanged. |
| Garage.PreviewColor | components/Garage.tsx:47-50 | On a stock engine the preview shows the chosen paint, or the stock red when no paint is chosen. From engine tier 1 it shows a trim colour. It is never empty. |
| Garage.PreviewFlame | components/Garage.tsx:68 | The exhaust flame shows exactly when a turbo tier is owned. |
| Garage.PreviewFollowsEngine | components/Garage.tsx:48-50 | Gold from engine tier 2 and platinum at tier 1, regardless of paint. On a stock engine, a chosen paint shows. |
| AppState.NextStage | App.tsx:85 | The next stage index is always in 0..3. It is i + 1 before the last stage and 0 after it. |
| AppState.StagesCycle | App.tsx:85 | Four stage advances return to the same stage. |
| AppState.StageReward | App.tsx:69 | The reward is floor(0.15 × first score): between 0 and the score for a nonnegative score. |
| AppState.App.constructor | App.tsx:15-27 | Menu, single-player, stage 0, no results, no peer, 0 points, stock red bike. |
| AppState.App.StartGame | App.tsx:37-52 | Online goes to the lobby and every other mode to the race. A reset returns to stage 0 with no results; otherwise both are kept. |
| AppState.App.OnOnlineConnected | App.tsx:54-60 | The link is kept, the mode becomes online, the race starts and the results are cleared. |
| AppState.App.OnGameOver | App.tsx:62-65 | The results are stored and the game-over screen shows. |
| AppState.App.OnLevelComplete | App.tsx:67-73 | The results are stored, the points rise by exactly floor(0.15 × first score), and the stage-complete screen shows. |
| AppState.App.HandlePurchase | App.tsx:75-78 | The points fall by exactly the cost and only the named line changes, with no affordability check. |
| AppState.App.HandleColorChange | App.tsx:80-82 | Only the paint changes. |
| AppState.App.NextLevel | App.tsx:84-87 | The stage becomes (stage + 1) mod 4, so it stays in 0..3, and the race starts. |
| AppState.App.QuitToMenu | App.tsx:97-101 | The menu shows and nothing else changes. |
| AppState.App.GarageClick | components/Garage.tsx:105-112 | A purchase happens exactly under the garage's guard. It raises the line by one tier within the table and never makes the points negative. |
| AppState.App.MountRace | App.tsx:127-140 | The race screens mount a race for the current stage, with the stage's theme from the sequence and bikes carrying the garage's upgrades. Its invariant holds. |

## Left out

- Rendering, particles, visual feedback, screen shake, lightning, weather and audio (components/GameCanvas.tsx:127-173, 553-585, 592-593, 658-900) are presentation. The random draws they make are not part of the stream either: the dust-spawn draw in propulsion, the particle draws and the weather draws. Because every property holds for every stream of draws in [0, 1), this only renumbers the draws.
- The commentary service, the lobby's connection handshake, the menu and the on-screen controls are outside the race logic. The peer link is a parameter: no link, or a link as host or joiner. Messages are returned values, not transport calls.
- React scheduling is not modelled. The render loop and effects become explicit method calls. The level-complete callback becomes a report returned by the tick, which the shell's `OnLevelComplete` takes.
- Floating point is not modelled: arithmetic is exact over the reals, and integer fields are unbounded.
- The screen switches with no logic of their own are not modelled: the lobby's cancel, the garage's exit and the navigation event to the garage. Each only assigns the screen.
- Race.RaceState.HandleData: the message's segments must be in order (`Sorted`). A host only ever sends a list that `GenerateTrack` proved sorted, and the lane lookup's answer is specified only for sorted lists. A SYNC_STATE snapshot replaces the peer's bike whole, because the peer always sends a complete bike.
- Physics.Propel: only heat ≥ 0 is proved, not heat ≤ 100. The code lets heat pass 100: a turbo tick can overshoot 100 before the overheat crash, and gravel adds 0.06 with no check.
- Physics.Land: the tick (`AirStep`, and so `Tick.PlayerTick` and `Race.RaceState.Tick`) lands with the corrected angle. For a backward landing whose truncated remainder `rotation % 2π` lies in (-2π, -2π + 0.85], the code wipes the bike out, and the model lands it upright and pays the flip bonus, for example at rotation -6.0. The as-written landing is `Physics.LandAsWritten`, and `Physics.BackwardLandingMisjudged` shows the difference; for rotations ≥ 0 the two are equal (`Physics.LandingsAgreeForward`).
- Physics.Advance: the score is rewritten as floor(x/10) every tick. A landing bonus therefore lasts only until the next tick's advance. The model keeps this behaviour as the code has it.
- Physics.PlayerOk: an optional `upgrades` field on the bike is modelled as always present. Every locally created bike has one, and the peer's bike is never simulated.

## Findings

| source | as written | input that shows it | evidently intended | confidence | as-written member | corrected member |
|---|---|---|---|---|---|---|
| components/GameCanvas.tsx:465-468 | The landing angle is `((rotation % 2π) + π) % 2π - π`, and JavaScript's `%` keeps the dividend's sign. So a rotation in (-2π, 0] is its own landing angle, and those in (-2π, -π] fall outside (-π, π]. | A backward flip landed at rotation -6.0 rad, 0.28 rad short of a full turn, reads as -6.0. It is judged a wipeout. | The angle reduced by whole turns into (-π, π]. This gives 0.28 and a clean landing, as forward flips already get. | not executed | Physics.NormalizeAngleAsWritten, Physics.LandAsWritten, Physics.BackwardFlipMisjudged, Physics.BackwardLandingMisjudged | Physics.NormalizeAngle, Physics.Land |

=== FILE: app.dfy ===
/**
 * The application shell: which screen is showing, the game mode, the stage
 * of the four-stage sequence, the last race's results, the peer link, the
 * points banked from finished stages and the bike's upgrades. Each handler
 * of the shell is a method that updates these fields.
 */
module AppState {
  import opened Constants
  import opened Types
  import opened Garage
  import Race

  /** The stages in the order they are raced. */
  const STAGE_SEQUENCE: seq<StageTheme> := [Day, Dusk, Night, Storm]

  /** The stage after `i`, wrapping from the last back to the first. */
  function NextStage(i: int): (j: int)
    ensures 0 <= j < |STAGE_SEQUENCE|
    ensures 0 <= i < |STAGE_SEQUENCE| - 1 ==> j == i + 1
    ensures i == |STAGE_SEQUENCE| - 1 ==> j == 0
  {
    (i + 1) % |STAGE_SEQUENCE|
  }

  /** Four stage advances from any stage of the sequence come back to it. */
  lemma StagesCycle(i: int)
    requires 0 <= i < |STAGE_SEQUENCE|
    ensures NextStage(NextStage(NextStage(NextStage(i)))) == i
  {
    assert i == 0 || i == 1 || i == 2 || i == 3;
  }

  /** Points a finished stage banks: 15% of the first bike's score, rounded down. */
  function StageReward(results: seq<RaceResult>): (points: int)
    requires |results| > 0
    ensures results[0].score >= 0 ==> 0 <= points <= results[0].score
    ensures points as real <= results[0].score as real * 0.15 < points as real + 1.0
  {
    (results[0].score as real * 0.15).Floor
  }

  class App {
    var gameState: GameState
    var gameMode: GameMode
    var stageIndex: int
    var results: seq<RaceResult>
    var link: Link
    var totalPoints: int
    var upgrades: BikeUpgrades

    /** The stage indexes the sequence, and every upgrade line is a tier of the table. */
    ghost predicate Valid()
      reads this
    {
      0 <= stageIndex < |STAGE_SEQUENCE| && TiersInRange(upgrades)
    }

    /** The menu, single-player, stage one, no results, no peer, no points, a stock red bike. */
    constructor()
      ensures Valid()
      ensures gameState == Menu && gameMode == Single && stageIndex == 0 && results == [] && link == NoLink
      ensures totalPoints == 0 && upgrades == BikeUpgrades(0, 0, 0, BIKE_BODY)
    {
      gameState, gameMode, stageIndex, results, link := Menu, Single, 0, [], NoLink;
      totalPoints, upgrades := 0, BikeUpgrades(0, 0, 0, BIKE_BODY);
    }

    /**
     * startGame: an online game goes to the lobby, any other mode straight to
     * the race; a reset returns to stage one with no results.
     */
    method StartGame(mode: GameMode, reset: bool)
      requires Valid()
      modifies this
      ensures Valid()
      ensures gameMode == mode
      ensures gameState == if mode == Online then Lobby else Playing
      ensures reset ==> stageIndex == 0 && results == []
      ensures !reset ==> stageIndex == old(stageIndex) && results == old(results)
      ensures link == old(link) && totalPoints == old(totalPoints) && upgrades == old(upgrades)
    {
      gameMode := mode;
      if reset {
        stageIndex, results := 0, [];
      }
      gameState := if mode == Online then Lobby else Playing;
    }

    /** onOnlineConnected: the peer link is kept and an online race starts with no results. */
    method OnOnlineConnected(isHost: bool)
      requires Valid()
      modifies this
      ensures Valid()
      ensures link == Linked(isHost) && gameMode == Online && gameState == Playing && results == []
      ensures stageIndex == old(stageIndex) && totalPoints == old(totalPoints) && upgrades == old(upgrades)
    {
      link, gameMode, gameState, results := Linked(isHost), Online, Playing, [];
    }

    /** onGameOver: the results are kept and the game-over screen shows. */
    method OnGameOver(finalResults: seq<RaceResult>)
      requires Valid()
      modifies this
      ensures Valid()
      ensures results == finalResults && gameState == GameOver
      ensures gameMode == old(gameMode) && stageIndex == old(stageIndex) && link == old(link)
      ensures totalPoints == old(totalPoints) && upgrades == old(upgrades)
    {
      results, gameState := finalResults, GameOver;
    }

    /**
     * onLevelComplete: the results are kept, the first bike's reward is
     * banked and the stage-complete screen shows. The first result must
     * exist: the handler reads it unconditionally.
     */
    method OnLevelComplete(finalResults: seq<RaceResult>)
      requires Valid() && |finalResults| > 0
      modifies this
      ensures Valid()
      ensures results == finalResults && gameState == LevelComplete
      ensures totalPoints == old(totalPoints) + StageReward(finalResults)
      ensures finalResults[0].score >= 0 ==> totalPoints >= old(totalPoints)
      ensures gameMode == old(gameMode) && stageIndex == old(stageIndex) && link == old(link) && upgrades == old(upgrades)
    {
      results := finalResults;
      totalPoints := totalPoints + StageReward(finalResults);
      gameState := LevelComplete;
    }

    /**
     * handlePurchase: the price is taken from the points and only the named
     * line changes. It checks nothing itself; the garage's guard does.
     */
    method HandlePurchase(cat: Category, tier: int, cost: int)
      modifies this
      ensures totalPoints == old(totalPoints) - cost
      ensures upgrades == WithLevel(old(upgrades), cat, tier)
      ensures gameState == old(gameState) && gameMode == old(gameMode) && stageIndex == old(stageIndex)
      ensures results == old(results) && link == old(link)
    {
      totalPoints := totalPoints - cost;
      upgrades := WithLevel(upgrades, cat, tier);
    }

    /** handleColorChange: only the paint changes. */
    method HandleColorChange(color: string)
      requires Valid()
      modifies this
      ensures Valid()
      ensures upgrades == old(upgrades).(color := color)
      ensures gameState == old(gameState) && gameMode == old(gameMode) && stageIndex == old(stageIndex)
      ensures results == old(results) && link == old(link) && totalPoints == old(totalPoints)
    {
      upgrades := upgrades.(color := color);
    }

    /** nextLevel: on to the next stage of the sequence, wrapping after the last, and race. */
    method NextLevel()
      requires Valid()
      modifies this
      ensures Valid()
      ensures stageIndex == NextStage(old(stageIndex)) && gameState == Playing
      ensures gameMode == old(gameMode) && results == old(results) && link == old(link)
      ensures totalPoints == old(totalPoints) && upgrades == old(upgrades)
    {
      stageIndex := NextStage(stageIndex);
      gameState := Playing;
    }

    /** quitToMenu: back to the menu, everything else kept. */
    method QuitToMenu()
      requires Valid()
      modifies this
      ensures Valid()
      ensures gameState == Menu
      ensures gameMode == old(gameMode) && stageIndex == old(stageIndex) && results == old(results)
      ensures link == old(link) && totalPoints == old(totalPoints) && upgrades == old(upgrades)
    {
      gameState := Menu;
    }

    /**
     * A click on an offered tier in the garage, wired to handlePurchase: a
     * purchase happens exactly when the tier is next in line and affordable,
     * raises that line by one tier within the table, and never takes the
     * points below zero.
     */
    method GarageClick(cat: Category, tierIndex: int) returns (bought: Option<Purchase>)
      requires Valid() && gameState == GarageScreen && tierIndex in OFFERED_TIERS
      modifies this
      ensures Valid()
      ensures bought == TierClick(old(totalPoints), old(upgrades), cat, tierIndex)
      ensures bought.None? ==> totalPoints == old(totalPoints) && upgrades == old(upgrades)
      ensures bought.Some? ==>
                && totalPoints == old(totalPoints) - bought.value.cost
                && upgrades == WithLevel(old(upgrades), cat, Level(old(upgrades), cat) + 1)
      ensures bought.Some? ==> 0 <= totalPoints < old(totalPoints)
      ensures old(totalPoints) >= 0 ==> totalPoints >= 0
      ensures gameState == old(gameState) && gameMode == old(gameMode) && stageIndex == old(stageIndex)
      ensures results == old(results) && link == old(link)
    {
      bought := TierClick(totalPoints, upgrades, cat, tierIndex);
      if bought.Some? {
        PurchaseStepsOneTier(totalPoints, upgrades, cat, tierIndex);
        HandlePurchase(bought.value.cat, bought.value.tier, bought.value.cost);
      }
    }

    /**
     * The race screens mount a fresh race for the current stage: its theme
     * is the stage's place in the sequence, and its bikes carry the garage's
     * upgrades.
     */
    method MountRace(rng: nat -> real) returns (race: Race.RaceState)
      requires Valid() && UnitStream(rng)
      requires gameState == Playing || gameState == GameOver || gameState == LevelComplete
      ensures fresh(race) && race.Valid()
      ensures race.mode == gameMode && race.link == link && race.stageIndex == stageIndex
      ensures race.theme == STAGE_SEQUENCE[stageIndex] && race.rng == rng
      ensures race.players == Race.StartingGrid(gameMode, Some(upgrades))
    {
      race := new Race.RaceState(gameMode, link, STAGE_SEQUENCE[stageIndex], stageIndex, Some(upgrades), rng);
    }
  }
}

=== FILE: collision.dfy ===
/**
 * Collision resolution between one bike and every other racer
 * (checkEntityCollisions). Candidates are judged on a snapshot taken when
 * the pass starts; blame goes by the sign of the along-track gap.
 */
module Collision {
  import opened Types
  import opened Physics

  /** Bounding-box overlap between the bike and another racer's position. */
  predicate Overlap(self: Player, x: real, y: real, z: real) {
    Abs(x - self.x) < 14.0 && Abs(self.y - y) < 12.0 && Abs(self.z - z) < 8.0
  }

  /** Another bike that is running and overlaps the bike. */
  predicate HitsPlayer(self: Player, other: Player) {
    !other.isCrashed && Overlap(self, other.x, other.y, other.z)
  }

  /** An AI rider that is running and overlaps the bike. */
  predicate HitsNpc(self: Player, other: NPC) {
    !other.isCrashed && Overlap(self, other.x, other.y, other.z)
  }

  /** The bike ran into the back of the other one: the other is strictly ahead. */
  predicate RearEndsPlayer(self: Player, other: Player) {
    HitsPlayer(self, other) && other.x - self.x > 0.0
  }

  predicate RearEndsNpc(self: Player, other: NPC) {
    HitsNpc(self, other) && other.x - self.x > 0.0
  }

  /** The bike blocked the other one: the other is level with it or behind. */
  predicate BlocksPlayer(self: Player, other: Player) {
    HitsPlayer(self, other) && other.x - self.x <= 0.0
  }

  predicate BlocksNpc(self: Player, other: NPC) {
    HitsNpc(self, other) && other.x - self.x <= 0.0
  }

  /** Rear-end hits against the first `n` bikes, the bike itself excluded. */
  function PlayerRearHits(self: Player, players: seq<Player>, index: int, n: nat): (c: nat)
    requires n <= |players|
    ensures c <= n
  {
    if n == 0 then 0
    else PlayerRearHits(self, players, index, n - 1) +
         (if n - 1 != index && RearEndsPlayer(self, players[n - 1]) then 1 else 0)
  }

  /** Rear-end hits against the first `n` AI riders. */
  function NpcRearHits(self: Player, npcs: seq<NPC>, n: nat): (c: nat)
    requires n <= |npcs|
    ensures c <= n
  {
    if n == 0 then 0
    else NpcRearHits(self, npcs, n - 1) + (if RearEndsNpc(self, npcs[n - 1]) then 1 else 0)
  }

  /** Every rear-end hit of the pass. */
  function RearHits(self: Player, players: seq<Player>, npcs: seq<NPC>, index: int): nat {
    PlayerRearHits(self, players, index, |players|) + NpcRearHits(self, npcs, |npcs|)
  }

  /** The bike after `hits` rear-end crashes, each counted; unchanged when there were none. */
  function Bonk(p: Player, hits: nat): (r: Player)
    ensures hits == 0 ==> r == p
    ensures hits > 0 ==> r == p.(isCrashed := true, crashTimer := 90, speed := 0.0,
                                 crashCount := p.crashCount + hits, comboMultiplier := 1)
  {
    if hits == 0 then p
    else p.(isCrashed := true, crashTimer := 90, speed := 0.0, crashCount := p.crashCount + hits, comboMultiplier := 1)
  }

  /** Crashing leaves the bike where it is, so later overlap tests see the same position. */
  lemma BonkStaysPut(p: Player, hits: nat)
    ensures Bonk(p, hits).x == p.x && Bonk(p, hits).y == p.y && Bonk(p, hits).z == p.z
  {
  }

  /** One more rear-end crash on top of `hits` is the bike after `hits + 1`. */
  lemma BonkAgain(p: Player, hits: nat)
    ensures var b := Bonk(p, hits);
            b.(isCrashed := true, crashTimer := 90, speed := 0.0, crashCount := b.crashCount + 1, comboMultiplier := 1)
            == Bonk(p, hits + 1)
  {
  }

  /** A bike knocked down by a block: one crash counted, combo kept. */
  function BlockedPlayer(p: Player): Player {
    p.(isCrashed := true, crashTimer := 90, speed := 0.0, crashCount := p.crashCount + 1)
  }

  /** An AI rider knocked down by a block: longer timer, no crash count. */
  function BlockedNpc(n: NPC): NPC {
    n.(isCrashed := true, crashTimer := 110, speed := 0.0)
  }

  /** `npcs.find(n => n.id === id)`: the first AI rider with the id, or |npcs| when none. */
  function FirstNpc(npcs: seq<NPC>, id: int): (m: nat)
    ensures m <= |npcs|
    ensures m < |npcs| ==> npcs[m].id == id
    ensures forall j :: 0 <= j < m ==> npcs[j].id != id
  {
    if npcs == [] then 0
    else if npcs[0].id == id then 0
    else 1 + FirstNpc(npcs[1..], id)
  }

  /** Some blocked rider among the first `n` resolves, by id, to the rider at `m`. */
  predicate NpcTargeted(self: Player, npcs: seq<NPC>, m: int, n: nat)
    requires n <= |npcs|
  {
    n > 0 && (NpcTargeted(self, npcs, m, n - 1) ||
              (BlocksNpc(self, npcs[n - 1]) && FirstNpc(npcs, npcs[n - 1].id) == m))
  }

  /** The blocked riders after one more rider: those before, and the target of rider `k` if the bike blocked it. */
  lemma TargetedStep(self: Player, npcs: seq<NPC>, k: nat)
    requires k < |npcs|
    ensures forall m :: NpcTargeted(self, npcs, m, k + 1) <==>
                          NpcTargeted(self, npcs, m, k) || (BlocksNpc(self, npcs[k]) && m == FirstNpc(npcs, npcs[k].id))
  {
  }

  /** The outcome for another bike: knocked down when the bike blocked it. */
  function PlayerOutcome(self: Player, other: Player): Player {
    if BlocksPlayer(self, other) then BlockedPlayer(other) else other
  }

  /** The outcome for an AI rider: knocked down when some blocked rider's id resolves to it. */
  function NpcOutcome(self: Player, npcs: seq<NPC>, m: int): NPC
    requires 0 <= m < |npcs|
  {
    if NpcTargeted(self, npcs, m, |npcs|) then BlockedNpc(npcs[m]) else npcs[m]
  }

  /**
   * checkEntityCollisions. A crashed bike does nothing. Otherwise every
   * running racer overlapping it is resolved in order, with no early exit:
   * each rear-end hit crashes the bike once more, and each block knocks the
   * other racer down. Hits are judged on the racers as they were when the
   * pass started.
   */
  method CheckEntityCollisions(players: seq<Player>, npcs: seq<NPC>, index: nat)
      returns (ps: seq<Player>, ns: seq<NPC>)
    requires index < |players|
    ensures |ps| == |players| && |ns| == |npcs|
    ensures players[index].isCrashed ==> ps == players && ns == npcs
    ensures !players[index].isCrashed ==>
              ps[index] == Bonk(players[index], RearHits(players[index], players, npcs, index))
    ensures !players[index].isCrashed ==>
              forall j :: 0 <= j < |players| && j != index ==> ps[j] == PlayerOutcome(players[index], players[j])
    ensures !players[index].isCrashed ==>
              forall m :: 0 <= m < |npcs| ==> ns[m] == NpcOutcome(players[index], npcs, m)
  {
    ps, ns := players, npcs;
    var self := players[index];
    if self.isCrashed {
      return;
    }
    var me;
    ps, me := ResolvePlayers(players, index);
    ns, me := ResolveNpcs(npcs, self, me, PlayerRearHits(self, players, index, |players|));
    ps := ps[index := me];
  }

  /** The first loop of the pass: the other bikes. */
  method ResolvePlayers(players: seq<Player>, index: nat) returns (ps: seq<Player>, me: Player)
    requires index < |players|
    ensures |ps| == |players| && ps[index] == players[index]
    ensures me == Bonk(players[index], PlayerRearHits(players[index], players, index, |players|))
    ensures forall t :: 0 <= t < |players| && t != index ==> ps[t] == PlayerOutcome(players[index], players[t])
  {
    ps, me := players, players[index];
    for j := 0 to |players|
      invariant me == Bonk(players[index], PlayerRearHits(players[index], players, index, j))
      invariant KnockedSoFar(players, index, ps, j)
    {
      ps, me := ResolvePlayer(players, index, j, ps, me);
    }
  }

  /** The bikes after the first `j` of the first loop: those blocked so far are knocked down, the rest untouched. */
  ghost predicate KnockedSoFar(players: seq<Player>, index: nat, ps: seq<Player>, j: nat)
    requires index < |players| && j <= |players|
  {
    && |ps| == |players| && ps[index] == players[index]
    && (forall t :: 0 <= t < j && t != index ==> ps[t] == PlayerOutcome(players[index], players[t]))
    && (forall t :: j <= t < |players| ==> ps[t] == players[t])
  }

  /** One more bike of the first loop: a rear-end hit crashes the bike once more, anything else leaves it. */
  lemma PlayerRearHitsStep(players: seq<Player>, index: nat, j: nat)
    requires index < |players| && j < |players|
    ensures var self := players[index];
            var b := Bonk(self, PlayerRearHits(self, players, index, j));
            Bonk(self, PlayerRearHits(self, players, index, j + 1)) ==
              if j != index && RearEndsPlayer(self, players[j])
              then b.(isCrashed := true, crashTimer := 90, speed := 0.0, crashCount := b.crashCount + 1, comboMultiplier := 1)
              else b
  {
    BonkAgain(players[index], PlayerRearHits(players[index], players, index, j));
  }

  /** One bike of the first loop: a rear-end hit crashes the bike, a block knocks the other bike down. */
  method ResolvePlayer(players: seq<Player>, index: nat, j: nat, ps0: seq<Player>, me0: Player)
      returns (ps: seq<Player>, me: Player)
    requires index < |players| && j < |players|
    requires me0 == Bonk(players[index], PlayerRearHits(players[index], players, index, j))
    requires KnockedSoFar(players, index, ps0, j)
    ensures me == Bonk(players[index], PlayerRearHits(players[index], players, index, j + 1))
    ensures KnockedSoFar(players, index, ps, j + 1)
  {
    ps, me := ps0, me0;
    BonkStaysPut(players[index], PlayerRearHits(players[index], players, index, j));
    PlayerRearHitsStep(players, index, j);
    var other := players[j];
    if j != index && !other.isCrashed && Overlap(me, other.x, other.y, other.z) {
      if other.x - me.x > 0.0 {
        me := me.(isCrashed := true, crashTimer := 90, speed := 0.0, crashCount := me.crashCount + 1, comboMultiplier := 1);
      } else {
        ps := ps[j := BlockedPlayer(ps[j])];
      }
    }
  }

  /** The riders after the first `k` of the second loop: exactly those targeted so far are knocked down. */
  ghost predicate BlockedSoFar(self: Player, npcs: seq<NPC>, ns: seq<NPC>, k: nat)
    requires k <= |npcs|
  {
    |ns| == |npcs| &&
    forall m :: 0 <= m < |npcs| ==> ns[m] == if NpcTargeted(self, npcs, m, k) then BlockedNpc(npcs[m]) else npcs[m]
  }

  /** One more rider of the second loop: a block knocks down the first rider with its id, anything else changes nothing. */
  lemma BlockedSoFarStep(self: Player, npcs: seq<NPC>, ns: seq<NPC>, k: nat)
    requires k < |npcs| && BlockedSoFar(self, npcs, ns, k)
    ensures BlocksNpc(self, npcs[k]) ==>
              var target := FirstNpc(npcs, npcs[k].id);
              BlockedSoFar(self, npcs, ns[target := BlockedNpc(ns[target])], k + 1)
    ensures !BlocksNpc(self, npcs[k]) ==> BlockedSoFar(self, npcs, ns, k + 1)
  {
    TargetedStep(self, npcs, k);
    if BlocksNpc(self, npcs[k]) {
      var target := FirstNpc(npcs, npcs[k].id);
      assert BlockedNpc(BlockedNpc(npcs[target])) == BlockedNpc(npcs[target]);
    }
  }

  /** One more rider of the second loop: a rear-end hit crashes the bike once more, anything else leaves it. */
  lemma RearHitsStep(self: Player, npcs: seq<NPC>, before: nat, k: nat)
    requires k < |npcs|
    ensures var b := Bonk(self, before + NpcRearHits(self, npcs, k));
            Bonk(self, before + NpcRearHits(self, npcs, k + 1)) ==
              if RearEndsNpc(self, npcs[k])
              then b.(isCrashed := true, crashTimer := 90, speed := 0.0, crashCount := b.crashCount + 1, comboMultiplier := 1)
              else b
  {
    BonkAgain(self, before + NpcRearHits(self, npcs, k));
  }

  /** The second loop of the pass: the AI riders, continuing from `before` rear-end hits. */
  method ResolveNpcs(npcs: seq<NPC>, self: Player, me0: Player, before: nat) returns (ns: seq<NPC>, me: Player)
    requires me0 == Bonk(self, before)
    ensures |ns| == |npcs|
    ensures me == Bonk(self, before + NpcRearHits(self, npcs, |npcs|))
    ensures forall m :: 0 <= m < |npcs| ==> ns[m] == NpcOutcome(self, npcs, m)
  {
    ns, me := npcs, me0;
    for k := 0 to |npcs|
      invariant me == Bonk(self, before + NpcRearHits(self, npcs, k))
      invariant BlockedSoFar(self, npcs, ns, k)
    {
      ns, me := ResolveNpc(npcs, self, before, k, ns, me);
    }
  }

  /** One rider of the second loop: a rear-end hit crashes the bike, a block knocks down the first rider with its id. */
  method ResolveNpc(npcs: seq<NPC>, self: Player, before: nat, k: nat, ns0: seq<NPC>, me0: Player)
      returns (ns: seq<NPC>, me: Player)
    requires k < |npcs|
    requires me0 == Bonk(self, before + NpcRearHits(self, npcs, k)) && BlockedSoFar(self, npcs, ns0, k)
    ensures me == Bonk(self, before + NpcRearHits(self, npcs, k + 1)) && BlockedSoFar(self, npcs, ns, k + 1)
  {
    ns, me := ns0, me0;
    BonkStaysPut(self, before + NpcRearHits(self, npcs, k));
    RearHitsStep(self, npcs, before, k);
    BlockedSoFarStep(self, npcs, ns, k);
    var other := npcs[k];
    if !other.isCrashed && Overlap(me, other.x, other.y, other.z) {
      if other.x - me.x > 0.0 {
        me := me.(isCrashed := true, crashTimer := 90, speed := 0.0, crashCount := me.crashCount + 1, comboMultiplier := 1);
      } else {
        var target := FirstNpc(npcs, other.id);
        ns := ns[target := BlockedNpc(ns[target])];
      }
    }
  }

  /** The closed form of the whole pass, used by the tick specification. */
  function Collide(players: seq<Player>, npcs: seq<NPC>, index: nat): (r: (seq<Player>, seq<NPC>))
    requires index < |players|
    ensures |r.0| == |players| && |r.1| == |npcs|
    ensures forall j :: 0 <= j < |players| ==> r.0[j].upgrades == players[j].upgrades
  {
    var self := players[index];
    if self.isCrashed then (players, npcs)
    else
      (seq(|players|, j requires 0 <= j < |players| =>
             if j == index then Bonk(self, RearHits(self, players, npcs, index)) else PlayerOutcome(self, players[j])),
       seq(|npcs|, m requires 0 <= m < |npcs| => NpcOutcome(self, npcs, m)))
  }

  /** The method computes the closed form. */
  lemma CollideMatches(players: seq<Player>, npcs: seq<NPC>, index: nat, ps: seq<Player>, ns: seq<NPC>)
    requires index < |players| && |ps| == |players| && |ns| == |npcs|
    requires players[index].isCrashed ==> ps == players && ns == npcs
    requires !players[index].isCrashed ==>
               ps[index] == Bonk(players[index], RearHits(players[index], players, npcs, index))
    requires !players[index].isCrashed ==>
               forall j :: 0 <= j < |players| && j != index ==> ps[j] == PlayerOutcome(players[index], players[j])
    requires !players[index].isCrashed ==>
               forall m :: 0 <= m < |npcs| ==> ns[m] == NpcOutcome(players[index], npcs, m)
    ensures (ps, ns) == Collide(players, npcs, index)
  {
    var r := Collide(players, npcs, index);
    if !players[index].isCrashed {
      assert forall j | 0 <= j < |ps| :: ps[j] == r.0[j];
      assert ps == r.0;
      assert forall m | 0 <= m < |ns| :: ns[m] == r.1[m];
      assert ns == r.1;
    }
  }

  /**
   * Outcome in words: the bike ends crashed exactly when it was already
   * crashed or rear-ended someone; nobody gains speed; every bike keeps its
   * position, upgrades and jump state.
   */
  lemma CollideOutcome(players: seq<Player>, npcs: seq<NPC>, index: nat)
    requires index < |players|
    ensures var r := Collide(players, npcs, index);
            r.0[index].isCrashed <==> players[index].isCrashed || RearHits(players[index], players, npcs, index) > 0
    ensures var r := Collide(players, npcs, index);
            forall j :: 0 <= j < |players| ==>
              r.0[j].x == players[j].x && r.0[j].y == players[j].y && r.0[j].z == players[j].z &&
              r.0[j].upgrades == players[j].upgrades && r.0[j].isJumping == players[j].isJumping &&
              r.0[j].totalJumpRotation == players[j].totalJumpRotation &&
              r.0[j].flipsInCurrentJump == players[j].flipsInCurrentJump &&
              r.0[j].heat == players[j].heat &&
              (players[j].speed >= 0.0 ==> 0.0 <= r.0[j].speed <= players[j].speed)
    ensures var r := Collide(players, npcs, index);
            forall j :: 0 <= j < |players| ==>
              players[j].crashCount <= r.0[j].crashCount &&
              (players[j].comboMultiplier >= 1 ==> r.0[j].comboMultiplier >= 1)
  {
  }

  /** A blocked rider at `m` was the first with the id of some running, overlapping rider level with or behind the bike. */
  lemma NpcTargetedWitness(self: Player, npcs: seq<NPC>, m: int, n: nat)
    requires n <= |npcs| && NpcTargeted(self, npcs, m, n)
    ensures exists k :: 0 <= k < n && BlocksNpc(self, npcs[k]) && FirstNpc(npcs, npcs[k].id) == m
  {
    if !(BlocksNpc(self, npcs[n - 1]) && FirstNpc(npcs, npcs[n - 1].id) == m) {
      NpcTargetedWitness(self, npcs, m, n - 1);
    }
  }

  /** With distinct ids every blocked rider is itself the one knocked down. */
  lemma DistinctIdsBlockThemselves(self: Player, npcs: seq<NPC>, k: int)
    requires forall a, b :: 0 <= a < b < |npcs| ==> npcs[a].id != npcs[b].id
    requires 0 <= k < |npcs| && BlocksNpc(self, npcs[k])
    ensures NpcOutcome(self, npcs, k) == BlockedNpc(npcs[k])
  {
    assert FirstNpc(npcs, npcs[k].id) == k;
    NpcTargetedReach(self, npcs, k, k + 1, |npcs|);
  }

  /** Once targeted among the first `n` riders, targeted among any longer prefix. */
  lemma {:induction false} NpcTargetedReach(self: Player, npcs: seq<NPC>, m: int, n: nat, n': nat)
    requires n <= n' <= |npcs| && NpcTargeted(self, npcs, m, n)
    ensures NpcTargeted(self, npcs, m, n')
    decreases n' - n
  {
    if n < n' {
      NpcTargetedReach(self, npcs, m, n, n' - 1);
    }
  }
}

=== FILE: constants.dfy ===
/**
 * Tuning constants of the simulation and the upgrade table (constants.ts).
 * Every quantity the source keeps as a JavaScript number is a `real` here;
 * counts and indices are `int`.
 */
module Constants {

  const VIRTUAL_WIDTH: real := 256.0

  const LANE_HEIGHT: real := 20.0
  const TRACK_TOP: real := 60.0

  const MAX_SPEED: real := 4.8
  const TURBO_SPEED: real := 6.4
  const ACCELERATION: real := 0.055
  const FRICTION: real := 0.022
  const GRAVITY: real := 0.16
  const JUMP_FORCE: real := 3.6

  const MAX_HEAT: real := 100.0
  const HEAT_INC: real := 0.22
  const HEAT_COOL: real := 0.14
  const OVERHEAT_PENALTY_TIME: int := 160

  /** Race length in score units; the world is ten times longer. */
  const STAGE_LENGTH: int := 5000
  const WORLD_LENGTH: real := 50000.0

  /**
   * Math.PI as the double the browser uses. The landing-angle counterexamples
   * rely on 3 < PI < 3.42; everything else only on its positivity.
   */
  const PI: real := 3.141592653589793
  const TWO_PI: real := 2.0 * PI

  /** Colours the garage preview chooses between. */
  const BIKE_BODY: string := "#e53935"
  const GOLD_TRIM: string := "#ffd700"
  const PLATINUM_TRIM: string := "#e5e4e2"

  /** The three upgrade categories of a bike. */
  datatype Category = Engine | Cooling | Turbo

  /** One row of the upgrade table; multipliers a category does not use are 1. */
  datatype Tier = Tier(name: string, cost: int, speedMult: real, accelMult: real,
                       heatMult: real, turboMult: real)

  /** Number of tiers per category (indices 0, 1, 2). */
  const TIER_COUNT: int := 3
  const LAST_TIER: int := TIER_COUNT - 1

  function UpgradeTier(cat: Category, index: int): (t: Tier)
    requires 0 <= index <= LAST_TIER
    ensures index == 0 <==> t.cost == 0
    ensures t.cost >= 0
    ensures 1.0 <= t.speedMult && 1.0 <= t.accelMult && 1.0 <= t.turboMult
    ensures 0.0 < t.heatMult <= 1.0
  {
    match cat
    case Engine =>
      if index == 0 then Tier("STOCK MOTOR", 0, 1.0, 1.0, 1.0, 1.0)
      else if index == 1 then Tier("PRO TUNED", 2500, 1.15, 1.1, 1.0, 1.0)
      else Tier("ELITE BORE", 8000, 1.3, 1.25, 1.0, 1.0)
    case Cooling =>
      if index == 0 then Tier("STOCK AIR", 0, 1.0, 1.0, 1.0, 1.0)
      else if index == 1 then Tier("LIQUID COOLED", 3000, 1.0, 1.0, 0.75, 1.0)
      else Tier("CRYO SINKS", 7500, 1.0, 1.0, 0.5, 1.0)
    case Turbo =>
      if index == 0 then Tier("STOCK PUMP", 0, 1.0, 1.0, 1.0, 1.0)
      else if index == 1 then Tier("NITRO BOOST", 4000, 1.0, 1.0, 1.0, 1.2)
      else Tier("WARP INJECTOR", 9000, 1.0, 1.0, 1.0, 1.45)
  }

  /** Each higher tier costs more and improves its own multiplier. */
  lemma TiersImprove(cat: Category, i: int, j: int)
    requires 0 <= i < j <= LAST_TIER
    ensures UpgradeTier(cat, i).cost < UpgradeTier(cat, j).cost
    ensures cat == Engine ==> UpgradeTier(cat, i).speedMult < UpgradeTier(cat, j).speedMult
    ensures cat == Cooling ==> UpgradeTier(cat, i).heatMult > UpgradeTier(cat, j).heatMult
    ensures cat == Turbo ==> UpgradeTier(cat, i).turboMult < UpgradeTier(cat, j).turboMult
  {
  }
}

=== FILE: garage.dfy ===
/**
 * The garage screen's rules: which tier of each upgrade line is owned,
 * which one is next in line, whether it is affordable, the guarded purchase
 * a tier's button makes, and the colour of the bike preview.
 */
module Garage {
  import opened Constants
  import opened Types

  /** The owned tier of one upgrade line. */
  function Level(u: BikeUpgrades, cat: Category): int {
    match cat
    case Engine => u.engine
    case Cooling => u.cooling
    case Turbo => u.turbo
  }

  /** The spread `{ ...prev, [cat]: tier }`: one line set to `tier`, the other lines and the paint kept. */
  function WithLevel(u: BikeUpgrades, cat: Category, tier: int): (r: BikeUpgrades)
    ensures Level(r, cat) == tier
    ensures forall other :: other != cat ==> Level(r, other) == Level(u, other)
    ensures r.color == u.color
  {
    match cat
    case Engine => u.(engine := tier)
    case Cooling => u.(cooling := tier)
    case Turbo => u.(turbo := tier)
  }

  /** The tiers the screen offers for sale in each line; tier 0 is the stock part. */
  const OFFERED_TIERS: seq<int> := [1, 2]

  predicate IsOwned(u: BikeUpgrades, cat: Category, tierIndex: int) {
    Level(u, cat) >= tierIndex
  }

  predicate IsNext(u: BikeUpgrades, cat: Category, tierIndex: int) {
    Level(u, cat) + 1 == tierIndex
  }

  predicate CanAfford(points: int, cat: Category, tierIndex: int)
    requires 0 <= tierIndex < TIER_COUNT
  {
    points >= UpgradeTier(cat, tierIndex).cost
  }

  /** What the purchase callback receives: the line, the tier and its price. */
  datatype Purchase = Purchase(cat: Category, tier: int, cost: int)

  /**
   * A click on an offered tier's button: a purchase of exactly that tier at
   * its listed price when it is next in line and affordable, and nothing
   * (a beep) otherwise.
   */
  function TierClick(points: int, u: BikeUpgrades, cat: Category, tierIndex: int): (r: Option<Purchase>)
    requires tierIndex in OFFERED_TIERS
    ensures r.Some? <==> IsNext(u, cat, tierIndex) && CanAfford(points, cat, tierIndex)
    ensures r.Some? ==> r.value.cat == cat && r.value.tier == tierIndex && r.value.cost == UpgradeTier(cat, tierIndex).cost
  {
    if IsNext(u, cat, tierIndex) && CanAfford(points, cat, tierIndex) then
      Some(Purchase(cat, tierIndex, UpgradeTier(cat, tierIndex).cost))
    else None
  }

  /** A tier is never both owned and next in line, so an owned tier's button is never live. */
  lemma OwnedIsNeverNext(u: BikeUpgrades, cat: Category, tierIndex: int)
    ensures IsOwned(u, cat, tierIndex) ==> !IsNext(u, cat, tierIndex)
    ensures IsNext(u, cat, tierIndex) ==> !IsOwned(u, cat, tierIndex)
  {
  }

  /**
   * A purchase from the screen raises its line by exactly one tier, never
   * past the last tier of the table, costs something, and leaves the points
   * nonnegative.
   */
  lemma PurchaseStepsOneTier(points: int, u: BikeUpgrades, cat: Category, tierIndex: int)
    requires tierIndex in OFFERED_TIERS
    ensures var r := TierClick(points, u, cat, tierIndex);
            r.Some? ==>
              && r.value.tier == Level(u, cat) + 1
              && 1 <= r.value.tier <= LAST_TIER
              && r.value.cost > 0
              && points - r.value.cost >= 0
  {
    var r := TierClick(points, u, cat, tierIndex);
    if r.Some? {
      assert r.value.cost == UpgradeTier(cat, tierIndex).cost;
    }
  }

  /**
   * Applying a purchase makes the tier owned and, when the line has a
   * further tier, makes that one next in line; the other lines stay as they
   * were.
   */
  lemma PurchaseOwnsTier(points: int, u: BikeUpgrades, cat: Category, tierIndex: int)
    requires tierIndex in OFFERED_TIERS
    requires TierClick(points, u, cat, tierIndex).Some?
    ensures var v := WithLevel(u, cat, tierIndex);
            && IsOwned(v, cat, tierIndex)
            && (tierIndex + 1 in OFFERED_TIERS ==> IsNext(v, cat, tierIndex + 1))
            && forall other :: other != cat ==> Level(v, other) == Level(u, other)
  {
  }

  /** The body colour of the preview: gold trim from engine tier 2, platinum from tier 1, else the paint (or the stock red when none is chosen). */
  function PreviewColor(u: BikeUpgrades): (color: string)
    ensures color in {GOLD_TRIM, PLATINUM_TRIM, BIKE_BODY, u.color}
    ensures color != ""
    ensures u.engine < 1 ==> color == (if u.color == "" then BIKE_BODY else u.color)
    ensures u.engine >= 1 ==> color in {GOLD_TRIM, PLATINUM_TRIM}
  {
    if u.engine >= 2 then GOLD_TRIM
    else if u.engine >= 1 then PLATINUM_TRIM
    else if u.color == "" then BIKE_BODY
    else u.color
  }

  /** The preview shows the exhaust flame once a turbo tier is owned. */
  function PreviewFlame(u: BikeUpgrades): (shown: bool)
    ensures shown <==> u.turbo >= 1
  {
    u.turbo > 0
  }

  /**
   * The preview tracks the engine line: on a stock engine it shows the
   * chosen paint, and once an engine tier is owned the paint no longer
   * matters.
   */
  lemma PreviewFollowsEngine(u: BikeUpgrades, paint: string)
    ensures u.engine < 1 && paint != "" ==> PreviewColor(u.(color := paint)) == paint
    ensures u.engine >= 1 ==> PreviewColor(u.(color := paint)) == PreviewColor(u)
    ensures u.engine >= 2 ==> PreviewColor(u) == GOLD_TRIM
    ensures u.engine == 1 ==> PreviewColor(u) == PLATINUM_TRIM
  {
  }
}

=== FILE: generator.dfy ===
/**
 * Track generator (generateTrack): the segment list, the obstacle list and
 * the four-rider AI roster of one stage, drawn from the injected random
 * stream `rng` starting at draw `k0`.
 */
module TrackGen {
  import opened Constants
  import opened Types
  import opened Layout

  const NPC_COLORS: seq<string> := ["#9c27b0", "#00bcd4", "#ff9800", "#e91e63", "#ffeb3b", "#607d8b"]

  /** `Object.values(ObstacleType)[i]`. */
  function ObstacleTypeAt(i: int): (t: ObstacleType)
    requires 0 <= i < 8
  {
    if i == 0 then Bump else if i == 1 then Ramp else if i == 2 then Mud
    else if i == 3 then BigRamp else if i == 4 then OilSlick else if i == 5 then Hurdle
    else if i == 6 then Water else Gravel
  }

  /** Width in lanes of a narrowed segment: one lane from the third stage on, else two. */
  function NarrowSpan(stageIndex: int): int {
    if stageIndex >= 2 then 1 else 2
  }

  /** Lanes lie within 0..3 and the range is not empty. */
  predicate LanesValid(s: TrackSegment) {
    0 <= s.minLane <= s.maxLane <= 3
  }

  /** A segment is either full width or narrowed to the stage's span. */
  predicate WidthFitsStage(s: TrackSegment, stageIndex: int) {
    (s.minLane == 0 && s.maxLane == 3) || s.maxLane - s.minLane + 1 == NarrowSpan(stageIndex)
  }

  predicate OffsetInRange(s: TrackSegment) {
    -20.0 <= s.yOffset <= 20.0
  }

  predicate SegmentShape(s: TrackSegment, stageIndex: int) {
    LanesValid(s) && WidthFitsStage(s, stageIndex) && OffsetInRange(s)
  }

  /** Consecutive segment starts after the first are 400 to 1200 apart. */
  predicate StepFits(a: real, b: real) {
    400.0 <= b - a < 1200.0
  }

  /** Appending a segment that starts after every other keeps the list sorted. */
  lemma SortedExtend(segments: seq<TrackSegment>, next: TrackSegment)
    requires Sorted(segments)
    requires forall i :: 0 <= i < |segments| ==> segments[i].x < next.x
    ensures Sorted(segments + [next])
  {
  }

  /** Everything the generator promises about the segment list. */
  predicate SegmentsWellFormed(segments: seq<TrackSegment>, stageIndex: int) {
    && |segments| >= 2
    && segments[0] == TrackSegment(0.0, 0, 3, 0.0)
    && segments[1].x == 1000.0
    && (forall i :: 1 <= i < |segments| - 1 ==> StepFits(segments[i].x, segments[i + 1].x))
    && (forall i :: 0 <= i < |segments| ==> SegmentShape(segments[i], stageIndex))
    && Sorted(segments)
    && segments[|segments| - 1].x < WORLD_LENGTH + 2000.0 <= segments[|segments| - 1].x + 1200.0
  }

  /** Smallest gap between obstacles on a stage. */
  function ObstacleGap(stageIndex: int): real {
    180.0 - stageIndex as real * 15.0
  }

  /** Consecutive obstacles are spaced by the stage gap plus less than 400. */
  predicate GapFits(a: real, b: real, stageIndex: int) {
    ObstacleGap(stageIndex) <= b - a < ObstacleGap(stageIndex) + 400.0
  }

  /** An obstacle lies inside the world and in a lane its segment allows. */
  predicate ObstaclePlaced(o: Obstacle, segments: seq<TrackSegment>) {
    && 600.0 <= o.x < WORLD_LENGTH
    && LayoutAt(segments, o.x).minLane <= o.lane <= LayoutAt(segments, o.x).maxLane
  }

  /** Everything the generator promises about the obstacle list. */
  predicate ObstaclesWellFormed(obstacles: seq<Obstacle>, segments: seq<TrackSegment>, stageIndex: int) {
    && |obstacles| >= 1
    && obstacles[0].x == 600.0
    && (forall i :: 0 <= i < |obstacles| - 1 ==> GapFits(obstacles[i].x, obstacles[i + 1].x, stageIndex))
    && (forall i :: 0 <= i < |obstacles| ==> ObstaclePlaced(obstacles[i], segments))
  }

  /** The freshly built AI rider in slot `i`. */
  predicate RosterEntry(n: NPC, i: int, stageIndex: int) {
    && n.id == i && n.lane == i && n.targetLane == i
    && n.x == 200.0 + 120.0 * i as real
    && n.y == LaneCentre(i, 0.0)
    && n.speed == 3.5
    && 3.5 + 0.3 * stageIndex as real <= n.baseSpeed < 4.0 + 0.3 * stageIndex as real
    && n.z == 0.0 && n.vz == 0.0 && !n.isJumping && !n.isCrashed && n.crashTimer == 0
  }

  /** The obstacle kind drawn for one obstacle, biased by theme. */
  method DrawObstacleType(theme: StageTheme, rng: nat -> real, k0: nat) returns (kind: ObstacleType, k: nat)
    requires UnitStream(rng)
    ensures k0 < k <= k0 + 2
    // day and dusk: one draw into the uniform table
    ensures theme == Day || theme == Dusk ==> k == k0 + 1 && kind == ObstacleTypeAt((rng(k0) * 8.0).Floor)
    // a storm bias that takes: water or mud, chosen by the second draw
    ensures theme == Storm && rng(k0) > 0.5 ==> k == k0 + 2 && kind in {Water, Mud}
    ensures theme == Storm && rng(k0) > 0.5 ==> (kind == Water <==> rng(k0 + 1) > 0.5)
    // a night bias that takes: a hurdle
    ensures theme == Night && rng(k0) > 0.4 ==> k == k0 + 1 && kind == Hurdle
    // a bias that was tried and missed: the uniform table on the next draw
    ensures (theme == Storm && rng(k0) <= 0.5) || (theme == Night && rng(k0) <= 0.4) ==>
              k == k0 + 2 && kind == ObstacleTypeAt((rng(k0 + 1) * 8.0).Floor)
  {
    k := k0;
    if theme == Storm && rng(k) > 0.5 {
      k := k + 1;
      kind := if rng(k) > 0.5 then Water else Mud;
      k := k + 1;
    } else if theme == Night && rng(k) > 0.4 {
      k := k + 1;
      kind := Hurdle;
    } else {
      if theme == Storm || theme == Night {
        k := k + 1;
      }
      ScaledDrawInRange(rng(k), 8);
      kind := ObstacleTypeAt((rng(k) * 8.0).Floor);
      k := k + 1;
    }
  }

  /**
   * One step of the segment loop after the kind and length draws: a narrowed
   * segment, a full-width one with the vertical offset shifted by 10 either
   * way (clamped to [-20, 20]), or a full-width one at the current offset.
   */
  method NextSegment(stageIndex: int, kind: real, currentX: real, currentYOffset: real, rng: nat -> real, k0: nat)
    returns (next: TrackSegment, yOffset: real, k: nat)
    requires UnitStream(rng)
    requires -20.0 <= currentYOffset <= 20.0
    ensures next.x == currentX && next.yOffset == yOffset
    ensures SegmentShape(next, stageIndex)
    ensures kind >= (0.3 + stageIndex as real * 0.1) * 0.5 ==> next.minLane == 0 && next.maxLane == 3
    ensures k0 <= k <= k0 + 1
    // a kind draw in the lower half of the complex band narrows the track, at the drawn first lane
    ensures kind < (0.3 + stageIndex as real * 0.1) * 0.5 ==>
              && next.maxLane - next.minLane + 1 == NarrowSpan(stageIndex)
              && next.minLane == (rng(k0) * (4 - NarrowSpan(stageIndex)) as real).Floor
              && yOffset == currentYOffset && k == k0 + 1
    // the upper half shifts the offset by 10, up exactly when the next draw exceeds 0.5, within [-20, 20]
    ensures (0.3 + stageIndex as real * 0.1) * 0.5 <= kind < 0.3 + stageIndex as real * 0.1 ==>
              && k == k0 + 1
              && (rng(k0) > 0.5 ==> yOffset == MinReal(20.0, currentYOffset + 10.0))
              && (rng(k0) <= 0.5 ==> yOffset == MaxReal(-20.0, currentYOffset - 10.0))
    // any other kind keeps the offset and draws nothing
    ensures kind >= 0.3 + stageIndex as real * 0.1 && kind >= (0.3 + stageIndex as real * 0.1) * 0.5 ==>
              yOffset == currentYOffset && k == k0
  {
    k := k0;
    yOffset := currentYOffset;
    var complexSegments := 0.3 + stageIndex as real * 0.1;
    if kind < complexSegments * 0.5 {
      var laneCount := NarrowSpan(stageIndex);
      ScaledDrawInRange(rng(k), 4 - laneCount);
      var minLane := (rng(k) * (4 - laneCount) as real).Floor;
      k := k + 1;
      next := TrackSegment(currentX, minLane, minLane + laneCount - 1, yOffset);
    } else if kind < complexSegments {
      yOffset := MaxReal(-20.0, MinReal(20.0, yOffset + (if rng(k) > 0.5 then 10.0 else -10.0)));
      k := k + 1;
      next := TrackSegment(currentX, 0, 3, yOffset);
    } else {
      next := TrackSegment(currentX, 0, 3, yOffset);
    }
  }

  /** The segment loop of generateTrack. */
  method BuildSegments(stageIndex: int, rng: nat -> real, k0: nat)
    returns (segments: seq<TrackSegment>, k: nat)
    requires 0 <= stageIndex <= 3
    requires UnitStream(rng)
    ensures SegmentsWellFormed(segments, stageIndex)
    ensures k >= k0
  {
    k := k0;
    segments := [TrackSegment(0.0, 0, 3, 0.0)];
    var currentX: real := 1000.0;
    var currentYOffset: real := 0.0;
    var worldLength := WORLD_LENGTH;

    while currentX < worldLength + 2000.0
      invariant k >= k0
      invariant |segments| >= 1 && segments[0] == TrackSegment(0.0, 0, 3, 0.0)
      invariant |segments| == 1 ==> currentX == 1000.0
      invariant |segments| >= 2 ==> segments[1].x == 1000.0
      invariant |segments| >= 2 ==> StepFits(segments[|segments| - 1].x, currentX)
      invariant segments[|segments| - 1].x < worldLength + 2000.0
      invariant forall i :: 1 <= i < |segments| - 1 ==> StepFits(segments[i].x, segments[i + 1].x)
      invariant forall i :: 0 <= i < |segments| ==> SegmentShape(segments[i], stageIndex)
      invariant -20.0 <= currentYOffset <= 20.0
      invariant Sorted(segments)
      invariant forall i :: 0 <= i < |segments| ==> segments[i].x < currentX
      decreases (worldLength + 2000.0 - currentX).Floor
    {
      var kind := rng(k);
      var length := 400.0 + rng(k + 1) * 800.0;
      k := k + 2;
      var next: TrackSegment;
      next, currentYOffset, k := NextSegment(stageIndex, kind, currentX, currentYOffset, rng, k);
      SortedExtend(segments, next);
      segments := segments + [next];
      currentX := currentX + length;
    }
  }

  /** The obstacle loop of generateTrack, run over the segments just built. */
  method PlaceObstacles(stageIndex: int, theme: StageTheme, segments: seq<TrackSegment>, rng: nat -> real, k0: nat)
    returns (obstacles: seq<Obstacle>, k: nat)
    requires 0 <= stageIndex <= 3
    requires UnitStream(rng)
    requires Sorted(segments)
    requires forall i :: 0 <= i < |segments| ==> LanesValid(segments[i])
    ensures ObstaclesWellFormed(obstacles, segments, stageIndex)
    ensures k >= k0
  {
    k := k0;
    obstacles := [];
    var worldLength := WORLD_LENGTH;
    var x: real := 600.0;
    while x < worldLength
      invariant k >= k0
      invariant |obstacles| == 0 ==> x == 600.0
      invariant |obstacles| >= 1 ==> obstacles[0].x == 600.0
      invariant |obstacles| >= 1 ==> GapFits(obstacles[|obstacles| - 1].x, x, stageIndex)
      invariant forall i :: 0 <= i < |obstacles| - 1 ==> GapFits(obstacles[i].x, obstacles[i + 1].x, stageIndex)
      invariant forall i :: 0 <= i < |obstacles| ==> ObstaclePlaced(obstacles[i], segments)
      invariant 600.0 <= x
      decreases (worldLength - x).Floor
    {
      var layout := GetTrackLayoutAt(segments, x);
      assert LanesValid(layout);
      ScaledDrawInRange(rng(k), layout.maxLane - layout.minLane + 1);
      var lane := layout.minLane + (rng(k) * (layout.maxLane - layout.minLane + 1) as real).Floor;
      k := k + 1;
      var kind;
      kind, k := DrawObstacleType(theme, rng, k);
      assert ObstaclePlaced(Obstacle(x, lane, kind), segments);
      ghost var placed := obstacles;
      obstacles := obstacles + [Obstacle(x, lane, kind)];
      assert forall i :: 0 <= i < |placed| ==> obstacles[i] == placed[i];
      x := x + ObstacleGap(stageIndex) + rng(k) * 400.0;
      k := k + 1;
    }
  }

  /** The roster loop of generateTrack: four riders, one per lane. */
  method BuildRoster(stageIndex: int, rng: nat -> real, k0: nat) returns (npcs: seq<NPC>, k: nat)
    requires UnitStream(rng)
    ensures |npcs| == 4 && forall i :: 0 <= i < 4 ==> RosterEntry(npcs[i], i, stageIndex)
    ensures k == k0 + 4
  {
    k := k0;
    npcs := [];
    for i := 0 to 4
      invariant k == k0 + i
      invariant |npcs| == i
      invariant forall j :: 0 <= j < i ==> RosterEntry(npcs[j], j, stageIndex)
    {
      var lane := i % 4;
      var baseSpeed := 3.5 + stageIndex as real * 0.3 + rng(k) * 0.5;
      k := k + 1;
      npcs := npcs + [NPC(i, 200.0 + i as real * 120.0, LaneCentre(lane, 0.0), lane, lane, 3.5, baseSpeed,
                          0.0, 0.0, false, NPC_COLORS[i % |NPC_COLORS|], false, 0)];
    }
  }

  /**
   * generateTrack, for the side that builds the track. Both loops terminate
   * for the stage indices the game reaches (0..3).
   */
  method GenerateTrack(stageIndex: int, theme: StageTheme, rng: nat -> real, k0: nat)
    returns (segments: seq<TrackSegment>, obstacles: seq<Obstacle>, npcs: seq<NPC>, k: nat)
    requires 0 <= stageIndex <= 3
    requires UnitStream(rng)
    ensures SegmentsWellFormed(segments, stageIndex)
    ensures ObstaclesWellFormed(obstacles, segments, stageIndex)
    ensures |npcs| == 4 && forall i :: 0 <= i < 4 ==> RosterEntry(npcs[i], i, stageIndex)
    ensures k >= k0
  {
    segments, k := BuildSegments(stageIndex, rng, k0);
    obstacles, k := PlaceObstacles(stageIndex, theme, segments, rng, k);
    npcs, k := BuildRoster(stageIndex, rng, k);
  }
}

=== FILE: layout.dfy ===
/**
 * Lane lookup (getTrackLayoutAt): which track segment governs a world x.
 */
module Layout {
  import opened Types

  /** The full-width layout used when no track has been built or received. */
  const DEFAULT_LAYOUT: TrackSegment := TrackSegment(0.0, 0, 3, 0.0)

  /** Segments in nondecreasing order of `x`. */
  predicate Sorted(segments: seq<TrackSegment>) {
    forall i, j :: 0 <= i < j < |segments| ==> segments[i].x <= segments[j].x
  }

  /** Index of the last segment starting at or before `x`, or -1 when there is none. */
  function LastNotAfter(segments: seq<TrackSegment>, x: real): (k: int)
    ensures -1 <= k < |segments|
    ensures k >= 0 ==> segments[k].x <= x
    ensures forall j :: k < j < |segments| ==> segments[j].x > x
  {
    if segments == [] then -1
    else if segments[|segments| - 1].x <= x then |segments| - 1
    else LastNotAfter(segments[..|segments| - 1], x)
  }

  /**
   * The layout governing `x`: the last segment that starts at or before it,
   * the first segment when `x` precedes them all, and the default full-width
   * layout on an empty track.
   */
  function LayoutAt(segments: seq<TrackSegment>, x: real): TrackSegment {
    if segments == [] then DEFAULT_LAYOUT
    else
      var k := LastNotAfter(segments, x);
      if k < 0 then segments[0] else segments[k]
  }

  /** The looked-up layout is always one of the segments, or the default on an empty track. */
  lemma LayoutAtIsElement(segments: seq<TrackSegment>, x: real)
    ensures segments == [] ==> LayoutAt(segments, x) == TrackSegment(0.0, 0, 3, 0.0)
    ensures segments != [] ==> LayoutAt(segments, x) in segments
  {
  }

  /**
   * On a sorted track each segment governs the half-open range from its own
   * start up to the next segment's start (the last one extends forever).
   */
  lemma SegmentGoverns(segments: seq<TrackSegment>, i: int, x: real)
    requires Sorted(segments)
    requires 0 <= i < |segments| && segments[i].x <= x
    requires i + 1 < |segments| ==> x < segments[i + 1].x
    ensures LayoutAt(segments, x) == segments[i]
  {
  }

  /** A query before the first segment resolves to the first segment. */
  lemma BeforeFirstSegment(segments: seq<TrackSegment>, x: real)
    requires Sorted(segments) && segments != [] && x < segments[0].x
    ensures LayoutAt(segments, x) == segments[0]
  {
  }

  /**
   * getTrackLayoutAt: binary search with `left`, `right` and `found`.
   * Whatever the order of the list, the answer is one of its segments (or the
   * default); on a sorted list it is exactly LayoutAt.
   */
  method GetTrackLayoutAt(segments: seq<TrackSegment>, x: real) returns (found: TrackSegment)
    ensures segments == [] ==> found == DEFAULT_LAYOUT
    ensures segments != [] ==> found in segments
    ensures Sorted(segments) ==> found == LayoutAt(segments, x)
  {
    if |segments| == 0 {
      return DEFAULT_LAYOUT;
    }
    var left, right := 0, |segments| - 1;
    found := segments[0];
    while left <= right
      invariant 0 <= left <= |segments| && -1 <= right < |segments| && left <= right + 1
      invariant found in segments
      invariant left == 0 ==> found == segments[0]
      invariant left > 0 ==> found == segments[left - 1]
      invariant Sorted(segments) ==> forall j :: 0 <= j < left ==> segments[j].x <= x
      invariant Sorted(segments) ==> forall j :: right < j < |segments| ==> segments[j].x > x
      decreases right - left
    {
      var mid := (left + right) / 2;
      if segments[mid].x <= x {
        found := segments[mid];
        left := mid + 1;
      } else {
        right := mid - 1;
      }
    }
    if Sorted(segments) {
      var k := LastNotAfter(segments, x);
      assert k == left - 1;
    }
  }
}

=== FILE: npc.dfy ===
/**
 * The AI riders' controller from the `update` loop: recycling riders that
 * fell behind the camera, crash recovery, speed easing toward a target set
 * by the main bike, periodic lane changes, steering and ramp jumps. It runs
 * only offline or on the host.
 */
module NpcControl {
  import opened Constants
  import opened Types
  import opened Layout

  /** Riders further than this behind the camera are recycled ahead of it. */
  const RECYCLE_MARGIN: real := 150.0

  /** Lane changes are considered once every this many frames. */
  const LANE_CHANGE_PERIOD: int := 120

  /**
   * A rider more than 150 behind the camera reappears 150 to 350 beyond the
   * right edge of the view, running at its base speed on a random lane, on
   * the ground. Two draws.
   */
  function Recycle(n: NPC, camX: real, rng: nat -> real, k: nat): (r: (NPC, nat))
    ensures n.x >= camX - RECYCLE_MARGIN ==> r == (n, k)
    ensures n.x < camX - RECYCLE_MARGIN ==>
              r.1 == k + 2 &&
              r.0 == n.(x := r.0.x, isCrashed := false, speed := n.baseSpeed, targetLane := r.0.targetLane, z := 0.0)
    ensures n.x < camX - RECYCLE_MARGIN && 0.0 <= rng(k) < 1.0 ==>
              camX + VIRTUAL_WIDTH + 150.0 <= r.0.x < camX + VIRTUAL_WIDTH + 350.0
    ensures n.x < camX - RECYCLE_MARGIN && 0.0 <= rng(k + 1) < 1.0 ==> 0 <= r.0.targetLane < 4
  {
    if n.x < camX - RECYCLE_MARGIN then
      ScaledDrawInRangeWhenUnit(rng(k + 1));
      (n.(x := camX + VIRTUAL_WIDTH + 150.0 + rng(k) * 200.0, isCrashed := false, speed := n.baseSpeed,
          targetLane := (rng(k + 1) * 4.0).Floor, z := 0.0), k + 2)
    else (n, k)
  }

  /** A draw in [0,1) scaled by four picks one of the lanes 0 .. 3. */
  lemma ScaledDrawInRangeWhenUnit(r: real)
    ensures 0.0 <= r < 1.0 ==> 0 <= (r * 4.0).Floor < 4
  {
    if 0.0 <= r < 1.0 {
      ScaledDrawInRange(r, 4);
    }
  }

  /** A crashed rider slows by 10% per tick and, when its timer runs out, restarts at 40% of its base speed. */
  function Recover(n: NPC): (r: NPC)
    requires n.isCrashed
    ensures r == n.(speed := r.speed, crashTimer := n.crashTimer - 1, isCrashed := r.isCrashed)
    ensures r.isCrashed <==> r.crashTimer > 0
    ensures r.speed == if r.isCrashed then n.speed * 0.9 else n.baseSpeed * 0.4
  {
    var slowed := n.(speed := n.speed * 0.9, crashTimer := n.crashTimer - 1);
    if slowed.crashTimer <= 0 then slowed.(isCrashed := false, speed := n.baseSpeed * 0.4) else slowed
  }

  /**
   * The speed a running rider eases toward: catch up at the main bike's
   * speed plus 1.2 when more than 150 behind it, hang back at 70% of base
   * when more than 300 ahead, otherwise base speed.
   */
  function TargetSpeed(n: NPC, main: Player): (t: real)
    ensures n.x - main.x < -150.0 ==> t == main.speed + 1.2
    ensures 300.0 < n.x - main.x ==> t == n.baseSpeed * 0.7
    ensures -150.0 <= n.x - main.x <= 300.0 ==> t == n.baseSpeed
  {
    var dist := n.x - main.x;
    if dist < -150.0 then main.speed + 1.2
    else if dist > 300.0 then n.baseSpeed * 0.7
    else n.baseSpeed
  }

  /**
   * The periodic lane change: on frames that are multiples of 120, a grounded
   * rider changes lane with probability 0.4, in a random direction, when the
   * new lane is in bounds.
   */
  function LaneChange(n: NPC, layout: TrackSegment, frame: int, rng: nat -> real, k: nat): (r: (int, nat))
    ensures frame % LANE_CHANGE_PERIOD != 0 || n.isJumping ==> r == (n.targetLane, k)
    ensures r.0 != n.targetLane ==> layout.minLane <= r.0 <= layout.maxLane && (r.0 == n.targetLane + 1 || r.0 == n.targetLane - 1)
    ensures k <= r.1 <= k + 2
  {
    if frame % LANE_CHANGE_PERIOD == 0 && !n.isJumping then
      if rng(k) > 0.6 then
        var dir := if rng(k + 1) > 0.5 then 1 else -1;
        var nl := n.targetLane + dir;
        (if layout.minLane <= nl <= layout.maxLane then nl else n.targetLane, k + 2)
      else (n.targetLane, k + 1)
    else (n.targetLane, k)
  }

  /**
   * On a period frame a grounded rider draws once; a draw above 0.6 takes a
   * second draw that picks the side, and the rider moves one lane to that
   * side exactly when that lane is allowed.
   */
  lemma LaneChangeChoice(n: NPC, layout: TrackSegment, frame: int, rng: nat -> real, k: nat)
    requires frame % LANE_CHANGE_PERIOD == 0 && !n.isJumping
    ensures rng(k) <= 0.6 ==> LaneChange(n, layout, frame, rng, k) == (n.targetLane, k + 1)
    ensures rng(k) > 0.6 ==>
              var r := LaneChange(n, layout, frame, rng, k);
              var side := if rng(k + 1) > 0.5 then 1 else -1;
              && r.1 == k + 2
              && (layout.minLane <= n.targetLane + side <= layout.maxLane ==> r.0 == n.targetLane + side)
              && (!(layout.minLane <= n.targetLane + side <= layout.maxLane) ==> r.0 == n.targetLane)
  {
  }

  /** Vertical motion of a rider in the air: gravity, and touchdown when it reaches the ground. */
  function NpcFly(n: NPC): (r: NPC)
    ensures !n.isJumping ==> r == n
    ensures n.isJumping && n.z + (n.vz - GRAVITY) > 0.0 ==> r == n.(vz := n.vz - GRAVITY, z := n.z + (n.vz - GRAVITY))
    ensures n.isJumping && n.z + (n.vz - GRAVITY) <= 0.0 ==> r == n.(vz := 0.0, z := 0.0, isJumping := false)
  {
    if n.isJumping then
      var vz := n.vz - GRAVITY;
      var z := n.z + vz;
      if z <= 0.0 then n.(z := 0.0, isJumping := false, vz := 0.0) else n.(vz := vz, z := z)
    else n
  }

  /**
   * A running rider's tick: speed eases 5% toward its target, the lane may
   * change, the target lane is clamped into the layout, the row eases toward
   * it, the rider advances by its new speed, and an airborne rider falls.
   */
  function Drive(n: NPC, layout: TrackSegment, main: Player, frame: int, rng: nat -> real, k: nat): (r: (NPC, nat))
    ensures r.0.id == n.id && r.0.baseSpeed == n.baseSpeed && r.0.color == n.color
    ensures r.0.isCrashed == n.isCrashed && r.0.crashTimer == n.crashTimer
    ensures r.0.speed - TargetSpeed(n, main) == 0.95 * (n.speed - TargetSpeed(n, main))
    ensures r.0.x == n.x + r.0.speed
    ensures layout.minLane <= layout.maxLane ==> layout.minLane <= r.0.targetLane <= layout.maxLane
    ensures frame % LANE_CHANGE_PERIOD != 0 ==> r.1 == k && r.0.targetLane == Clamp(n.targetLane, layout.minLane, layout.maxLane)
    ensures layout.minLane <= n.targetLane <= layout.maxLane ==> -1 <= r.0.targetLane - n.targetLane <= 1
    ensures var target := LaneCentre(r.0.targetLane, layout.yOffset);
            r.0.y - target == 0.92 * (n.y - target)
    ensures k <= r.1 <= k + 2
  {
    var speed := n.speed + (TargetSpeed(n, main) - n.speed) * 0.05;
    var change := LaneChange(n, layout, frame, rng, k);
    var lane := Clamp(change.0, layout.minLane, layout.maxLane);
    var targetY := LaneCentre(lane, layout.yOffset);
    var y := n.y + (targetY - n.y) * 0.08;
    var steered := n.(speed := speed, targetLane := lane, y := y,
                      lane := Round((y - layout.yOffset - TRACK_TOP - 10.0) / LANE_HEIGHT), x := n.x + speed);
    (NpcFly(steered), change.1)
  }

  /**
   * The rider's lane after driving is the lane whose centre is nearest its
   * new row, and its vertical motion is the fall of an airborne rider: the
   * result is the rider, with its starting height, speed and jump state,
   * put through NpcFly.
   */
  lemma DriveSteersAndFalls(n: NPC, layout: TrackSegment, main: Player, frame: int, rng: nat -> real, k: nat)
    ensures var r := Drive(n, layout, main, frame, rng, k).0;
            && r.lane == Round((r.y - layout.yOffset - TRACK_TOP - 10.0) / LANE_HEIGHT)
            && r == NpcFly(r.(z := n.z, vz := n.vz, isJumping := n.isJumping))
    ensures var r := Drive(n, layout, main, frame, rng, k).0;
            var offset := (r.y - layout.yOffset - TRACK_TOP - 10.0) / LANE_HEIGHT;
            offset - 0.5 < r.lane as real <= offset + 0.5
    ensures !n.isJumping ==> var r := Drive(n, layout, main, frame, rng, k).0;
            r.z == n.z && r.vz == n.vz && !r.isJumping
  {
  }

  /** A ramp, big ramp or bump under a grounded rider on its lane, within 5 along the track. */
  predicate RampUnder(n: NPC, o: Obstacle) {
    Abs(n.x - o.x) < 5.0 && n.lane == o.lane && !n.isJumping && o.kind in {Ramp, BigRamp, Bump}
  }

  /** Launch speed a rider gets from a ramp: 1.4 JUMP_FORCE from a big ramp, JUMP_FORCE otherwise. */
  function NpcLaunch(n: NPC, kind: ObstacleType): NPC {
    n.(isJumping := true, vz := JUMP_FORCE * (if kind == BigRamp then 1.4 else 1.0))
  }

  /** The first `m` obstacles applied to a rider in list order. */
  function RampPass(n: NPC, obstacles: seq<Obstacle>, m: nat): (r: NPC)
    requires m <= |obstacles|
    ensures n.isJumping ==> r == n
    ensures r == n || exists i :: 0 <= i < m && r == NpcLaunch(n, obstacles[i].kind)
  {
    if m == 0 then n
    else
      var before := RampPass(n, obstacles, m - 1);
      if RampUnder(before, obstacles[m - 1]) then NpcLaunch(before, obstacles[m - 1].kind) else before
  }

  /** The first ramp under a grounded rider decides its jump; later ones are skipped. */
  lemma {:induction false} FirstRampDecides(n: NPC, obstacles: seq<Obstacle>, m: nat, i: nat)
    requires i < m <= |obstacles| && RampUnder(n, obstacles[i])
    requires forall j :: 0 <= j < i ==> !RampUnder(n, obstacles[j])
    ensures RampPass(n, obstacles, m) == NpcLaunch(n, obstacles[i].kind)
  {
    if m - 1 > i {
      FirstRampDecides(n, obstacles, m - 1, i);
    } else {
      NoRampBefore(n, obstacles, i);
    }
  }

  /** With no ramp under it among the first `m` obstacles a grounded rider is untouched. */
  lemma {:induction false} NoRampBefore(n: NPC, obstacles: seq<Obstacle>, m: nat)
    requires m <= |obstacles|
    requires forall j :: 0 <= j < m ==> !RampUnder(n, obstacles[j])
    ensures RampPass(n, obstacles, m) == n
  {
    if m > 0 {
      NoRampBefore(n, obstacles, m - 1);
    }
  }

  /**
   * One rider's tick, with the layout looked up at its position before any
   * recycling: recycle, then either crash recovery (no advance) or driving
   * followed by the ramp pass.
   */
  function NpcStep(n: NPC, segments: seq<TrackSegment>, camX: real, main: Player, frame: int,
                   obstacles: seq<Obstacle>, rng: nat -> real, k: nat): (r: (NPC, nat))
    ensures k <= r.1 <= k + 4
    ensures r.0.id == n.id && r.0.baseSpeed == n.baseSpeed
  {
    var layout := LayoutAt(segments, n.x);
    var recycled := Recycle(n, camX, rng, k);
    if recycled.0.isCrashed then (Recover(recycled.0), recycled.1)
    else
      var driven := Drive(recycled.0, layout, main, frame, rng, recycled.1);
      (RampPass(driven.0, obstacles, |obstacles|), driven.1)
  }

  /** A crashed rider that is not recycled stays where it is and recovers. */
  lemma CrashedRiderStays(n: NPC, segments: seq<TrackSegment>, camX: real, main: Player, frame: int,
                          obstacles: seq<Obstacle>, rng: nat -> real, k: nat)
    requires n.isCrashed && n.x >= camX - RECYCLE_MARGIN
    ensures NpcStep(n, segments, camX, main, frame, obstacles, rng, k) == (Recover(n), k)
  {
  }

  /**
   * A running rider ends its tick on a lane allowed by the segment it
   * started on, and changes lane only on frames that are multiples of 120.
   */
  lemma RunningRiderStaysInBounds(n: NPC, segments: seq<TrackSegment>, camX: real, main: Player, frame: int,
                                  obstacles: seq<Obstacle>, rng: nat -> real, k: nat)
    requires !Recycle(n, camX, rng, k).0.isCrashed
    requires LayoutAt(segments, n.x).minLane <= LayoutAt(segments, n.x).maxLane
    ensures var r := NpcStep(n, segments, camX, main, frame, obstacles, rng, k).0;
            LayoutAt(segments, n.x).minLane <= r.targetLane <= LayoutAt(segments, n.x).maxLane
    ensures frame % LANE_CHANGE_PERIOD != 0 ==>
              var r := NpcStep(n, segments, camX, main, frame, obstacles, rng, k).0;
              var start := Recycle(n, camX, rng, k).0;
              r.targetLane == Clamp(start.targetLane, LayoutAt(segments, n.x).minLane, LayoutAt(segments, n.x).maxLane)
  {
    var driven := Drive(Recycle(n, camX, rng, k).0, LayoutAt(segments, n.x), main, frame, rng, Recycle(n, camX, rng, k).1);
    RampPassKeepsLane(driven.0, obstacles, |obstacles|);
  }

  /** The ramp pass changes only the jump state. */
  lemma {:induction false} RampPassKeepsLane(n: NPC, obstacles: seq<Obstacle>, m: nat)
    requires m <= |obstacles|
    ensures RampPass(n, obstacles, m) == n.(isJumping := RampPass(n, obstacles, m).isJumping, vz := RampPass(n, obstacles, m).vz)
  {
    if m > 0 {
      RampPassKeepsLane(n, obstacles, m - 1);
    }
  }

  /** This frame's tick of one rider from a given random-stream cursor: the body of the forEach over the riders. */
  function RiderStep(segments: seq<TrackSegment>, camX: real, main: Player, frame: int,
                     obstacles: seq<Obstacle>, rng: nat -> real): (NPC, nat) -> (NPC, nat)
  {
    (n, k) => NpcStep(n, segments, camX, main, frame, obstacles, rng, k)
  }

  /** A step that keeps a rider's identity and base speed and never rewinds the draw cursor. */
  ghost predicate KeepsRoster(step: (NPC, nat) -> (NPC, nat)) {
    forall n: NPC, c: nat :: c <= step(n, c).1 && step(n, c).0.id == n.id && step(n, c).0.baseSpeed == n.baseSpeed
  }

  /** A rider's step keeps its identity and base speed and never rewinds the cursor. */
  lemma RiderStepKeepsRoster(segments: seq<TrackSegment>, camX: real, main: Player, frame: int,
                             obstacles: seq<Obstacle>, rng: nat -> real)
    ensures KeepsRoster(RiderStep(segments, camX, main, frame, obstacles, rng))
  {
    var step := RiderStep(segments, camX, main, frame, obstacles, rng);
    forall n: NPC, c: nat
      ensures c <= step(n, c).1 && step(n, c).0.id == n.id && step(n, c).0.baseSpeed == n.baseSpeed
    {
      assert step(n, c) == NpcStep(n, segments, camX, main, frame, obstacles, rng, c);
    }
  }

  /**
   * The forEach over the riders: the first `m` riders updated in list order
   * by `step`, each from the random-stream cursor the riders before it left.
   */
  function NpcPass(npcs: seq<NPC>, step: (NPC, nat) -> (NPC, nat), k: nat, m: nat): (r: (seq<NPC>, nat))
    requires m <= |npcs|
    ensures |r.0| == m
  {
    if m == 0 then ([], k)
    else
      var before := NpcPass(npcs, step, k, m - 1);
      var next := step(npcs[m - 1], before.1);
      (before.0 + [next.0], next.1)
  }

  /**
   * When every rider's step keeps the rider's identity and base speed and
   * never rewinds the cursor, so does the whole pass.
   */
  lemma {:induction false} NpcPassKeepsRoster(npcs: seq<NPC>, step: (NPC, nat) -> (NPC, nat), k: nat, m: nat)
    requires m <= |npcs|
    requires KeepsRoster(step)
    ensures k <= NpcPass(npcs, step, k, m).1
    ensures forall i :: 0 <= i < m ==>
              NpcPass(npcs, step, k, m).0[i].id == npcs[i].id && NpcPass(npcs, step, k, m).0[i].baseSpeed == npcs[i].baseSpeed
  {
    if m > 0 {
      NpcPassKeepsRoster(npcs, step, k, m - 1);
      var before := NpcPass(npcs, step, k, m - 1);
      var next := step(npcs[m - 1], before.1);
      assert NpcPass(npcs, step, k, m) == (before.0 + [next.0], next.1);
    }
  }

  /** Later riders never change an earlier rider's result. */
  lemma {:induction false} NpcPassStable(npcs: seq<NPC>, step: (NPC, nat) -> (NPC, nat), k: nat, m: nat, i: nat)
    requires i < m <= |npcs|
    ensures NpcPass(npcs, step, k, m).0[i] == NpcPass(npcs, step, k, i + 1).0[i]
  {
    if m - 1 > i {
      NpcPassStable(npcs, step, k, m - 1, i);
      var prev := NpcPass(npcs, step, k, m - 1);
      var next := step(npcs[m - 1], prev.1);
      assert (prev.0 + [next.0])[i] == prev.0[i];
    }
  }

  /** Each rider's result is its own step, from the cursor the riders before it left. */
  lemma NpcPassElementwise(npcs: seq<NPC>, step: (NPC, nat) -> (NPC, nat), k: nat, m: nat, i: nat)
    requires i < m <= |npcs|
    ensures NpcPass(npcs, step, k, m).0[i] == step(npcs[i], NpcPass(npcs, step, k, i).1).0
  {
    NpcPassStable(npcs, step, k, m, i);
  }
}

=== FILE: physics.dfy ===
/**
 * The steps of one bike's tick (updatePlayer) as functions on Player
 * values: lane intent, steering, propulsion and heat, advance and score,
 * flight and landing, obstacle effects. The race-state class composes them
 * in the source's order.
 */
module Physics {
  import opened Constants
  import opened Types
  import opened Layout

  /** Key codes one bike listens to. */
  datatype Controls = Controls(up: string, down: string, left: string, right: string, gas: string, turbo: string)

  /** Bike 0 uses the arrows with Z/X; every other bike W/A/S/D with F/G. */
  function ControlsFor(index: int): (c: Controls)
    ensures c.up != c.down && c.left != c.right
    ensures c.gas !in {c.up, c.down} && c.turbo !in {c.up, c.down}
    ensures c.left !in {c.up, c.down} && c.right !in {c.up, c.down}
  {
    if index == 0 then Controls("ArrowUp", "ArrowDown", "ArrowLeft", "ArrowRight", "KeyZ", "KeyX")
    else Controls("KeyW", "KeyS", "KeyA", "KeyD", "KeyF", "KeyG")
  }

  /** Invariants a locally simulated bike keeps from tick to tick. */
  predicate PlayerOk(p: Player) {
    && p.speed >= 0.0
    && p.heat >= 0.0
    && p.comboMultiplier >= 1
    && p.crashCount >= 0
    && p.totalJumpRotation >= 0.0
    && p.flipsInCurrentJump == (p.totalJumpRotation / TWO_PI).Floor
    && (!p.isJumping ==> p.totalJumpRotation == 0.0)
    && TiersInRange(p.upgrades)
  }

  // ---------------------------------------------------------------- creation

  /** createPlayer: a bike at the start line in lane `id % 4`, carrying a copy of the upgrades. */
  function CreatePlayer(id: nat, upgrades: Option<BikeUpgrades>): (p: Player)
    ensures p.id == id && p.lane == id % 4 && p.targetLane == id % 4
    ensures p.x == 20.0 && p.y == LaneCentre(id % 4, 0.0)
    ensures p.speed == 0.0 && p.heat == 0.0 && !p.isCrashed && !p.isJumping
    ensures p.score == 0 && p.crashCount == 0 && p.comboMultiplier == 1
    ensures upgrades.Some? ==> p.upgrades == upgrades.value
    ensures upgrades.None? ==> p.upgrades == BikeUpgrades(0, 0, 0, BIKE_BODY)
    ensures (upgrades.Some? ==> TiersInRange(upgrades.value)) ==> PlayerOk(p)
  {
    Player(id, 20.0, LaneCentre(id % 4, 0.0), id % 4, id % 4, 0.0, 0.0, 0.0, 0.0, false, 0.0, 0.0, 0.0,
           false, 0, 0, 0, 0, 1,
           if upgrades.Some? then upgrades.value else BikeUpgrades(0, 0, 0, BIKE_BODY))
  }

  // ---------------------------------------------------------------- step 1: lane intent

  /** The up key is honoured: held, a lane above is allowed, and the bike is upright on the ground. */
  predicate UpFires(p: Player, layout: TrackSegment, keys: set<string>, c: Controls) {
    !p.isCrashed && c.up in keys && p.targetLane > layout.minLane && !p.isJumping
  }

  /**
   * The down key is honoured: held, the bike is upright on the ground, and
   * the lane below the one the up key left it in is allowed.
   */
  predicate DownFires(p: Player, layout: TrackSegment, keys: set<string>, c: Controls) {
    var lane := if UpFires(p, layout, keys, c) then p.targetLane - 1 else p.targetLane;
    !p.isCrashed && c.down in keys && lane < layout.maxLane && !p.isJumping
  }

  /**
   * Lane intent: an honoured up or down press moves the target lane by one and
   * is removed from the key set; the target lane is then clamped into the
   * layout's bounds.
   */
  function LaneIntent(p: Player, layout: TrackSegment, keys: set<string>, c: Controls): (r: (Player, set<string>))
    requires c.up != c.down
    ensures r.0 == p.(targetLane := r.0.targetLane)
    ensures r.1 <= keys && keys - r.1 <= {c.up, c.down}
    ensures c.up !in r.1 <==> c.up !in keys || UpFires(p, layout, keys, c)
    ensures c.down !in r.1 <==> c.down !in keys || DownFires(p, layout, keys, c)
    ensures p.isCrashed || p.isJumping ==> r.1 == keys
    ensures layout.minLane <= layout.maxLane ==> layout.minLane <= r.0.targetLane <= layout.maxLane
    ensures layout.minLane <= p.targetLane <= layout.maxLane ==>
              r.0.targetLane == p.targetLane - (if c.up in keys - r.1 then 1 else 0) + (if c.down in keys - r.1 then 1 else 0)
    ensures keys == r.1 ==> r.0.targetLane == Clamp(p.targetLane, layout.minLane, layout.maxLane)
  {
    var up := UpFires(p, layout, keys, c);
    var lane1 := if up then p.targetLane - 1 else p.targetLane;
    var keys1 := if up then keys - {c.up} else keys;
    var down := !p.isCrashed && c.down in keys1 && lane1 < layout.maxLane && !p.isJumping;
    var lane2 := if down then lane1 + 1 else lane1;
    var keys2 := if down then keys1 - {c.down} else keys1;
    (p.(targetLane := Clamp(lane2, layout.minLane, layout.maxLane)), keys2)
  }

  // ---------------------------------------------------------------- steering

  /** How far the bike's row moves toward its target lane each tick. */
  function LaneResponsiveness(storm: bool): real {
    if storm then 0.12 else 0.18
  }

  /**
   * Steering: the screen row eases toward the target lane's centre and the
   * discrete lane is the lane whose centre is nearest the new row.
   */
  function Steer(p: Player, layout: TrackSegment, storm: bool): (r: Player)
    ensures r == p.(y := r.y, lane := r.lane)
    ensures var target := LaneCentre(p.targetLane, layout.yOffset);
            r.y - target == (1.0 - LaneResponsiveness(storm)) * (p.y - target)
    ensures var target := LaneCentre(p.targetLane, layout.yOffset);
            Abs(r.y - target) <= Abs(p.y - target)
    ensures var offset := (r.y - layout.yOffset - TRACK_TOP - 10.0) / LANE_HEIGHT;
            offset - 0.5 < r.lane as real <= offset + 0.5
    ensures p.y == LaneCentre(p.targetLane, layout.yOffset) ==> r.lane == p.targetLane
  {
    var targetY := LaneCentre(p.targetLane, layout.yOffset);
    var y := p.y + (targetY - p.y) * LaneResponsiveness(storm);
    p.(y := y, lane := Round((y - layout.yOffset - TRACK_TOP - 10.0) / LANE_HEIGHT))
  }

  // ---------------------------------------------------------------- step 2: propulsion and heat

  /** Top speed with the throttle held: turbo ceiling with turbo held, engine ceiling otherwise. */
  function SpeedCeiling(turbo: bool, u: BikeUpgrades): (limit: real)
    requires TiersInRange(u)
    ensures limit >= MAX_SPEED
    ensures turbo ==> limit == TURBO_SPEED * UpgradeTier(Turbo, u.turbo).turboMult
    ensures !turbo ==> limit == MAX_SPEED * UpgradeTier(Engine, u.engine).speedMult
  {
    if turbo then TURBO_SPEED * UpgradeTier(Turbo, u.turbo).turboMult
    else MAX_SPEED * UpgradeTier(Engine, u.engine).speedMult
  }

  /** Heat one turbo tick adds. */
  function TurboHeat(u: BikeUpgrades): (h: real)
    requires TiersInRange(u)
    ensures 0.0 < h <= HEAT_INC * 1.3
  {
    HEAT_INC * 1.3 * UpgradeTier(Cooling, u.cooling).heatMult
  }

  /** Speed one throttle tick adds: 1.5 times more under turbo; storm grip is 0.75. */
  function Thrust(turboFactor: real, u: BikeUpgrades, storm: bool): (a: real)
    requires TiersInRange(u) && turboFactor > 0.0
    ensures a > 0.0
  {
    var grip := if storm then 0.75 else 1.0;
    ACCELERATION * turboFactor * UpgradeTier(Engine, u.engine).accelMult * grip
  }

  /** Speed one coasting tick loses to friction; the storm's wet track drags less. */
  function Friction(storm: bool): (f: real)
    ensures 0.0 < f <= FRICTION
  {
    if storm then FRICTION * 0.6 else FRICTION
  }

  /** `Math.max(0, Math.min(v, ceiling))`: the speed held between a standstill and the ceiling. */
  function CapSpeed(v: real, ceiling: real): (r: real)
    requires ceiling >= 0.0
    ensures 0.0 <= r <= ceiling
    ensures 0.0 <= v <= ceiling ==> r == v
    ensures v > ceiling ==> r == ceiling
    ensures v < 0.0 ==> r == 0.0
  {
    MaxReal(0.0, MinReal(v, ceiling))
  }

  /** The bike just boiled over: crash for the overheat penalty, count it, lose the combo. */
  function Overheat(p: Player): Player {
    p.(isCrashed := true, crashTimer := OVERHEAT_PENALTY_TIME, crashCount := p.crashCount + 1, comboMultiplier := 1)
  }

  /**
   * A crashed bike coasts down (x0.94) while its crash timer runs out, and
   * recovers with a cold engine when the timer reaches zero.
   */
  function Coast(p: Player): (r: Player)
    requires p.isCrashed
    ensures r == p.(speed := r.speed, heat := r.heat, isCrashed := r.isCrashed, crashTimer := r.crashTimer)
    ensures r.speed == p.speed * 0.94 && r.crashTimer == p.crashTimer - 1
    ensures r.isCrashed == (r.crashTimer > 0)
    ensures r.heat == (if r.crashTimer <= 0 then 0.0 else p.heat)
  {
    var timer := p.crashTimer - 1;
    if timer <= 0 then p.(speed := p.speed * 0.94, crashTimer := timer, isCrashed := false, heat := 0.0)
    else p.(speed := p.speed * 0.94, crashTimer := timer)
  }

  /**
   * A running bike's new speed: turbo (only while below MAX_HEAT) adds the
   * turbo thrust, otherwise the gas adds the plain thrust, otherwise
   * friction slows it; the result is held in [0, ceiling].
   */
  function ThrottleSpeed(p: Player, gas: bool, turbo: bool, storm: bool): (v: real)
    requires TiersInRange(p.upgrades)
    ensures 0.0 <= v <= SpeedCeiling(turbo, p.upgrades)
    // turbo below MAX_HEAT adds the turbo thrust, up to the ceiling
    ensures turbo && p.heat < MAX_HEAT ==>
              var raw := p.speed + Thrust(1.5, p.upgrades, storm);
              (raw <= SpeedCeiling(turbo, p.upgrades) && p.speed >= 0.0 ==> v == raw) &&
              (raw > SpeedCeiling(turbo, p.upgrades) ==> v == SpeedCeiling(turbo, p.upgrades))
    // otherwise (no turbo, or turbo at MAX_HEAT) the gas adds the plain thrust, up to the ceiling
    ensures !(turbo && p.heat < MAX_HEAT) && gas ==>
              var raw := p.speed + Thrust(1.0, p.upgrades, storm);
              (raw <= SpeedCeiling(turbo, p.upgrades) && p.speed >= 0.0 ==> v == raw) &&
              (raw > SpeedCeiling(turbo, p.upgrades) ==> v == SpeedCeiling(turbo, p.upgrades))
    // with neither, friction slows the bike, never below a standstill
    ensures !(turbo && p.heat < MAX_HEAT) && !gas ==>
              var raw := p.speed - Friction(storm);
              (0.0 <= raw <= SpeedCeiling(turbo, p.upgrades) ==> v == raw) &&
              (raw < 0.0 ==> v == 0.0)
    ensures !(turbo && p.heat < MAX_HEAT) && !gas && p.speed >= 0.0 ==> v <= p.speed
    // turbo at MAX_HEAT never adds the turbo thrust
    ensures turbo && p.heat >= MAX_HEAT && p.speed >= 0.0 ==> v <= p.speed + Thrust(1.0, p.upgrades, storm)
  {
    var raw :=
      if turbo && p.heat < MAX_HEAT then p.speed + Thrust(1.5, p.upgrades, storm)
      else if gas then p.speed + Thrust(1.0, p.upgrades, storm)
      else p.speed - Friction(storm);
    CapSpeed(raw, SpeedCeiling(turbo, p.upgrades))
  }

  /**
   * A running bike's new heat: turbo below MAX_HEAT heats it, the gas cools
   * it at half rate, coasting at full rate, never below zero.
   */
  function ThrottleHeat(p: Player, gas: bool, turbo: bool): (h: real)
    requires TiersInRange(p.upgrades)
    ensures turbo && p.heat < MAX_HEAT ==> h == p.heat + TurboHeat(p.upgrades) && h > p.heat
    ensures !(turbo && p.heat < MAX_HEAT) && gas ==>
              h >= 0.0 && (p.heat >= HEAT_COOL * 0.5 ==> h == p.heat - HEAT_COOL * 0.5) && (p.heat < HEAT_COOL * 0.5 ==> h == 0.0)
    ensures !(turbo && p.heat < MAX_HEAT) && !gas ==>
              h >= 0.0 && (p.heat >= HEAT_COOL ==> h == p.heat - HEAT_COOL) && (p.heat < HEAT_COOL ==> h == 0.0)
    ensures p.heat >= 0.0 ==> h >= 0.0
  {
    if turbo && p.heat < MAX_HEAT then p.heat + TurboHeat(p.upgrades)
    else if gas then MaxReal(0.0, p.heat - HEAT_COOL * 0.5)
    else MaxReal(0.0, p.heat - HEAT_COOL)
  }

  /**
   * A running bike follows the throttle: its speed and heat change, and
   * reaching MAX_HEAT under turbo is an overheat crash (timer 160, count + 1,
   * combo lost); nothing else about the bike changes.
   */
  function Throttle(p: Player, gas: bool, turbo: bool, storm: bool): (r: Player)
    requires TiersInRange(p.upgrades)
    ensures r.speed == ThrottleSpeed(p, gas, turbo, storm) && r.heat == ThrottleHeat(p, gas, turbo)
    ensures turbo && p.heat < MAX_HEAT && r.heat >= MAX_HEAT ==>
              r == p.(speed := r.speed, heat := r.heat, isCrashed := true, crashTimer := OVERHEAT_PENALTY_TIME,
                      crashCount := p.crashCount + 1, comboMultiplier := 1)
    ensures !(turbo && p.heat < MAX_HEAT && r.heat >= MAX_HEAT) ==> r == p.(speed := r.speed, heat := r.heat)
  {
    var q := p.(speed := ThrottleSpeed(p, gas, turbo, storm), heat := ThrottleHeat(p, gas, turbo));
    if turbo && p.heat < MAX_HEAT && q.heat >= MAX_HEAT then Overheat(q) else q
  }

  /**
   * Propulsion and heat: a crashed bike coasts, a running one follows the
   * throttle. Speed and heat stay nonnegative, and only a running bike at
   * MAX_HEAT under turbo can crash here.
   */
  function Propel(p: Player, gas: bool, turbo: bool, storm: bool): (r: Player)
    requires TiersInRange(p.upgrades)
    ensures r == p.(speed := r.speed, heat := r.heat, isCrashed := r.isCrashed, crashTimer := r.crashTimer,
                    crashCount := r.crashCount, comboMultiplier := r.comboMultiplier)
    ensures p.isCrashed ==> r.speed == p.speed * 0.94 && r.crashTimer == p.crashTimer - 1
    ensures p.isCrashed ==> r.crashCount == p.crashCount && r.comboMultiplier == p.comboMultiplier
    ensures !p.isCrashed ==> 0.0 <= r.speed <= SpeedCeiling(turbo, p.upgrades)
    ensures !p.isCrashed && r.isCrashed ==>
              turbo && p.heat < MAX_HEAT && r.heat >= MAX_HEAT && r.crashCount == p.crashCount + 1 && r.comboMultiplier == 1
    ensures r.crashCount >= p.crashCount && (p.comboMultiplier >= 1 ==> r.comboMultiplier >= 1)
    ensures p.heat >= 0.0 ==> r.heat >= 0.0
    ensures p.speed >= 0.0 ==> r.speed >= 0.0
  {
    if p.isCrashed then Coast(p) else Throttle(p, gas, turbo, storm)
  }

  // ---------------------------------------------------------------- step 3: advance and score

  /** The bike moves by its speed and its score becomes the distance in tens, dropping any earlier bonus. */
  function Advance(p: Player): (r: Player)
    ensures r == p.(x := r.x, score := r.score)
    ensures r.x == p.x + p.speed
    ensures r.score as real <= r.x / 10.0 < r.score as real + 1.0
  {
    var x := p.x + p.speed;
    p.(x := x, score := (x / 10.0).Floor)
  }

  // ---------------------------------------------------------------- step 6: flight and landing

  /** Whole turns contained in an accumulated rotation. */
  function FlipsIn(total: real): int {
    (total / TWO_PI).Floor
  }

  /**
   * One airborne tick before touchdown is checked: gravity, rotation input
   * (left spins back, right forward; with no input the bike rights itself
   * toward the nearest whole turn), and flip counting from the total
   * absolute rotation.
   */
  function Fly(p: Player, left: bool, right: bool): (r: Player)
    requires p.isJumping
    ensures r == p.(vz := r.vz, z := r.z, rotation := r.rotation, rotationSpeed := r.rotationSpeed,
                    totalJumpRotation := r.totalJumpRotation, flipsInCurrentJump := r.flipsInCurrentJump)
    ensures r.vz == p.vz - GRAVITY && r.z == p.z + r.vz
    // each held key adds its spin; the spin is then damped, less while a key is held
    ensures r.rotationSpeed ==
              (p.rotationSpeed - (if left then 0.022 else 0.0) + (if right then 0.022 else 0.0)) *
              (if left || right then 0.98 else 0.85)
    // while turning the bike turns by its spin
    ensures left || right ==> r.rotation == p.rotation + r.rotationSpeed
    // with no key held the bike first closes 8% of its gap to the nearest whole turn
    ensures !left && !right ==>
              var upright := Round(p.rotation / TWO_PI) as real * TWO_PI;
              r.rotation - r.rotationSpeed - upright == 0.92 * (p.rotation - upright)
    ensures r.totalJumpRotation == p.totalJumpRotation + Abs(r.rotationSpeed)
    ensures r.totalJumpRotation >= p.totalJumpRotation
    ensures r.flipsInCurrentJump >= p.flipsInCurrentJump
    ensures p.flipsInCurrentJump == FlipsIn(p.totalJumpRotation) ==>
              r.flipsInCurrentJump == FlipsIn(r.totalJumpRotation)
  {
    var vz := p.vz - GRAVITY;
    var z := p.z + vz;
    var rs0 := p.rotationSpeed - (if left then 0.022 else 0.0) + (if right then 0.022 else 0.0);
    var rotating := left || right;
    var rotation0 :=
      if rotating then p.rotation
      else
        var targetRot := Round(p.rotation / TWO_PI) as real * TWO_PI;
        p.rotation + (targetRot - p.rotation) * 0.08;
    var rs := if rotating then rs0 * 0.98 else rs0 * 0.85;
    var rotation := rotation0 + rs;
    var total := p.totalJumpRotation + Abs(rs);
    var current := FlipsIn(total);
    var flips := if current > p.flipsInCurrentJump then current else p.flipsInCurrentJump;
    p.(vz := vz, z := z, rotation := rotation, rotationSpeed := rs, totalJumpRotation := total,
       flipsInCurrentJump := flips)
  }

  /** Angle threshold beyond which a landing is a wipeout. */
  const LANDING_TOLERANCE: real := 0.85

  /**
   * Landing resolution at touchdown, given the landing angle. An angle more
   * than 0.85 rad from upright wipes out (timer 75, full stop, crash
   * counted, combo lost) whatever the flips; otherwise the bike is set
   * upright and, if it completed at least one flip, the combo rises by one
   * and the score gains flips * 500 * new combo. The jump accumulators are
   * cleared either way.
   */
  function Touchdown(p: Player, angle: real): (r: Player)
    ensures r.z == 0.0 && !r.isJumping && r.vz == 0.0
    ensures r.rotationSpeed == 0.0 && r.totalJumpRotation == 0.0 && r.flipsInCurrentJump == 0
    ensures Abs(angle) > LANDING_TOLERANCE ==>
              r.isCrashed && r.crashTimer == 75 && r.speed == 0.0 &&
              r.crashCount == p.crashCount + 1 && r.comboMultiplier == 1 && r.score == p.score
    ensures Abs(angle) <= LANDING_TOLERANCE ==>
              r.rotation == 0.0 && r.isCrashed == p.isCrashed && r.speed == p.speed && r.crashCount == p.crashCount
    ensures Abs(angle) <= LANDING_TOLERANCE && p.flipsInCurrentJump > 0 ==>
              r.comboMultiplier == p.comboMultiplier + 1 &&
              r.score == p.score + p.flipsInCurrentJump * 500 * r.comboMultiplier
    ensures Abs(angle) <= LANDING_TOLERANCE && p.flipsInCurrentJump <= 0 ==>
              r.comboMultiplier == p.comboMultiplier && r.score == p.score
    ensures r.x == p.x && r.y == p.y && r.heat == p.heat && r.upgrades == p.upgrades
  {
    var touched := p.(z := 0.0, isJumping := false, vz := 0.0);
    var resolved :=
      if Abs(angle) > LANDING_TOLERANCE then
        touched.(isCrashed := true, crashTimer := 75, speed := 0.0, crashCount := p.crashCount + 1, comboMultiplier := 1)
      else if p.flipsInCurrentJump > 0 then
        var combo := p.comboMultiplier + 1;
        touched.(rotation := 0.0, comboMultiplier := combo, score := p.score + p.flipsInCurrentJump * 500 * combo)
      else
        touched.(rotation := 0.0);
    resolved.(rotationSpeed := 0.0, totalJumpRotation := 0.0, flipsInCurrentJump := 0)
  }

  /**
   * The landing the tick uses: the rotation is judged by its angle reduced
   * into (-pi, pi], so a landing within 0.85 rad of any whole turn, forward
   * or backward, is clean.
   */
  function Land(p: Player): (r: Player)
    ensures r.z == 0.0 && !r.isJumping && r.vz == 0.0
    ensures r.rotationSpeed == 0.0 && r.totalJumpRotation == 0.0 && r.flipsInCurrentJump == 0
    ensures Abs(NormalizeAngle(p.rotation)) > LANDING_TOLERANCE ==>
              r.isCrashed && r.crashTimer == 75 && r.speed == 0.0 &&
              r.crashCount == p.crashCount + 1 && r.comboMultiplier == 1 && r.score == p.score
    ensures Abs(NormalizeAngle(p.rotation)) <= LANDING_TOLERANCE ==>
              r.rotation == 0.0 && r.isCrashed == p.isCrashed && r.speed == p.speed && r.crashCount == p.crashCount
    ensures Abs(NormalizeAngle(p.rotation)) <= LANDING_TOLERANCE && p.flipsInCurrentJump > 0 ==>
              r.comboMultiplier == p.comboMultiplier + 1 &&
              r.score == p.score + p.flipsInCurrentJump * 500 * r.comboMultiplier
    ensures Abs(NormalizeAngle(p.rotation)) <= LANDING_TOLERANCE && p.flipsInCurrentJump <= 0 ==>
              r.comboMultiplier == p.comboMultiplier && r.score == p.score
    ensures r.x == p.x && r.y == p.y && r.heat == p.heat && r.upgrades == p.upgrades
  {
    Touchdown(p, NormalizeAngle(p.rotation))
  }

  /**
   * The landing as updatePlayer writes it: the rotation is judged by the
   * angle the two truncating remainders give.
   */
  function LandAsWritten(p: Player): (r: Player)
    ensures r.z == 0.0 && !r.isJumping && r.vz == 0.0
    ensures Abs(NormalizeAngleAsWritten(p.rotation)) > LANDING_TOLERANCE ==>
              r.isCrashed && r.crashTimer == 75 && r.speed == 0.0 &&
              r.crashCount == p.crashCount + 1 && r.comboMultiplier == 1
    ensures Abs(NormalizeAngleAsWritten(p.rotation)) <= LANDING_TOLERANCE ==>
              r.rotation == 0.0 && r.isCrashed == p.isCrashed && r.speed == p.speed && r.crashCount == p.crashCount
  {
    Touchdown(p, NormalizeAngleAsWritten(p.rotation))
  }

  /** On the ground the tilt decays, spin stops and the bike sits no higher than the surface. */
  function Ground(p: Player): (r: Player)
    requires !p.isJumping
    ensures r == p.(rotation := r.rotation, rotationSpeed := 0.0, z := r.z)
    ensures r.rotation == p.rotation * 0.82
    ensures r.z <= 0.0 && (p.z < 0.0 ==> r.z == p.z)
  {
    p.(rotation := p.rotation * 0.82, rotationSpeed := 0.0, z := if p.z < 0.0 then p.z else 0.0)
  }

  /** Step 6 of the tick: fly, and land on touchdown; or stay grounded. */
  function AirStep(p: Player, left: bool, right: bool): (r: Player)
    ensures !p.isJumping ==> r == Ground(p)
    ensures p.isJumping && Fly(p, left, right).z <= 0.0 ==> r == Land(Fly(p, left, right))
    ensures p.isJumping && Fly(p, left, right).z > 0.0 ==> r == Fly(p, left, right)
  {
    if p.isJumping then
      var flown := Fly(p, left, right);
      if flown.z <= 0.0 then Land(flown) else flown
    else Ground(p)
  }

  // ---------------------------------------------------------------- angles

  /** JavaScript `x % (2 * Math.PI)`: the remainder takes the sign of the dividend. */
  function TurnRem(a: real): (r: real)
    ensures a >= 0.0 ==> 0.0 <= r < TWO_PI
    ensures a < 0.0 ==> -TWO_PI < r <= 0.0
    ensures r == a - WholeTurns(a) as real * TWO_PI
  {
    a - WholeTurns(a) as real * TWO_PI
  }

  /** The quotient of `a / 2pi` truncated toward zero. */
  function WholeTurns(a: real): (n: int)
    ensures a >= 0.0 ==> n as real <= a / TWO_PI < n as real + 1.0
    ensures a < 0.0 ==> n as real - 1.0 < a / TWO_PI <= n as real
  {
    if a >= 0.0 then (a / TWO_PI).Floor else -((-a) / TWO_PI).Floor
  }

  /**
   * The landing angle as updatePlayer computes it:
   * ((rotation % 2pi) + pi) % 2pi - pi with the truncating remainder.
   */
  function NormalizeAngleAsWritten(rotation: real): real {
    TurnRem(TurnRem(rotation) + PI) - PI
  }

  /** Whole turns the intended normalisation removes: ceil((rotation - pi) / 2pi). */
  function TurnsAbovePi(rotation: real): (n: int)
    ensures (rotation - PI) / TWO_PI <= n as real < (rotation - PI) / TWO_PI + 1.0
  {
    -((PI - rotation) / TWO_PI).Floor
  }

  /** The landing angle brought into (-pi, pi] by removing whole turns. */
  function NormalizeAngle(rotation: real): (r: real)
    ensures -PI < r <= PI
    ensures r == rotation - TurnsAbovePi(rotation) as real * TWO_PI
  {
    rotation - TurnsAbovePi(rotation) as real * TWO_PI
  }

  /**
   * The as-written normalisation leaves angles just short of a full backward
   * turn far from zero: a rotation of -6.0 rad, 0.28 rad from upright, reads
   * as -6.0 and is judged a wipeout; the intended normalisation gives 0.28.
   */
  lemma BackwardFlipMisjudged()
    ensures NormalizeAngleAsWritten(-6.0) == -6.0
    ensures Abs(NormalizeAngleAsWritten(-6.0)) > LANDING_TOLERANCE
    ensures NormalizeAngle(-6.0) == -6.0 + TWO_PI
    ensures Abs(NormalizeAngle(-6.0)) <= LANDING_TOLERANCE
  {
    assert WholeTurns(-6.0) == 0;
    assert TurnRem(-6.0) == -6.0;
    assert WholeTurns(-6.0 + PI) == 0;
    assert TurnsAbovePi(-6.0) == -1;
  }

  /**
   * As written, a rotation in (-2pi, 0] is its own landing angle: the two
   * remainders leave it alone and the added and removed pi cancel, so only
   * the backward rotations beyond a half turn fall outside (-pi, pi].
   */
  lemma NegativeAngleAsWritten(rotation: real)
    requires -TWO_PI < rotation <= 0.0
    ensures NormalizeAngleAsWritten(rotation) == rotation
    ensures rotation <= -PI ==> NormalizeAngleAsWritten(rotation) <= -PI
  {
    assert WholeTurns(rotation) == 0;
    assert WholeTurns(rotation + PI) == 0;
  }

  /**
   * For rotations that are not negative (forward tilt and forward flips) the
   * as-written normalisation is the intended one, except that it names the
   * half-turn -pi instead of pi; the landing decision is the same.
   */
  lemma NormalizationsAgreeForward(rotation: real)
    requires rotation >= 0.0
    ensures NormalizeAngleAsWritten(rotation) == NormalizeAngle(rotation) ||
            (NormalizeAngleAsWritten(rotation) == -PI && NormalizeAngle(rotation) == PI)
    ensures Abs(NormalizeAngleAsWritten(rotation)) == Abs(NormalizeAngle(rotation))
  {
    var m := TurnRem(rotation);
    var f := WholeTurns(rotation);
    var k := TurnsAbovePi(rotation);
    var r := NormalizeAngle(rotation);
    assert r - m == (f - k) as real * TWO_PI;
    if m < PI {
      assert WholeTurns(m + PI) == 0;
      assert -1.0 < (f - k) as real <= 0.5;
      assert f == k;
    } else {
      assert WholeTurns(m + PI) == 1;
      assert NormalizeAngleAsWritten(rotation) == m - TWO_PI;
      assert -0.5 < (f - k + 1) as real <= 1.0;
    }
  }

  /** For a rotation that is not negative the written landing is the one the tick uses. */
  lemma LandingsAgreeForward(p: Player)
    requires p.rotation >= 0.0
    ensures LandAsWritten(p) == Land(p)
  {
    NormalizationsAgreeForward(p.rotation);
  }

  /**
   * A running bike landing a backward flip 0.28 rad short of a full turn
   * (rotation -6.0) wipes out as written, and lands clean, with no crash
   * counted, in the tick.
   */
  lemma BackwardLandingMisjudged(p: Player)
    requires p.rotation == -6.0 && !p.isCrashed
    ensures LandAsWritten(p).isCrashed && LandAsWritten(p).crashCount == p.crashCount + 1
    ensures !Land(p).isCrashed && Land(p).crashCount == p.crashCount && Land(p).rotation == 0.0
  {
    BackwardFlipMisjudged();
  }

  // ---------------------------------------------------------------- step 7: obstacles

  /** An obstacle acts on a bike on the ground, not crashed, within 10 along and 7 across. */
  predicate ObstacleActs(p: Player, o: Obstacle, obstacleLayout: TrackSegment) {
    && Abs(p.x - o.x) < 10.0
    && Abs(p.y - LaneCentre(o.lane, obstacleLayout.yOffset)) < 7.0
    && !p.isJumping && !p.isCrashed
  }

  /** Launch speed an obstacle gives a bike: bump 0.75, ramp 1, big ramp 1.6 (of JUMP_FORCE). */
  function LaunchFactor(kind: ObstacleType): real {
    match kind
    case Bump => 0.75
    case Ramp => 1.0
    case BigRamp => 1.6
    case _ => 0.0
  }

  /** The bike takes off with the given upward speed. */
  function Launch(p: Player, vz: real): Player {
    p.(isJumping := true, vz := vz)
  }

  /**
   * The effect of one acting obstacle. `kick` is the oil slick's random spin
   * and `shift` its random lane nudge (0 when none was drawn).
   */
  function ObstacleEffect(p: Player, kind: ObstacleType, layout: TrackSegment, kick: real, shift: int): (r: Player)
    ensures p.speed >= 0.0 ==> 0.0 <= r.speed <= p.speed
    ensures r.x == p.x && r.y == p.y && r.isCrashed == p.isCrashed && r.crashCount == p.crashCount
    ensures r.comboMultiplier == p.comboMultiplier && r.totalJumpRotation == p.totalJumpRotation
    ensures r.flipsInCurrentJump == p.flipsInCurrentJump && r.upgrades == p.upgrades && r.score == p.score
    ensures r.isJumping <==> p.isJumping || kind in {Bump, Ramp, BigRamp} || (kind == Hurdle && p.speed > 2.2)
    ensures kind in {Bump, Ramp, BigRamp} ==> r.vz == JUMP_FORCE * LaunchFactor(kind) && r.speed == p.speed
    ensures kind == Hurdle && p.speed > 2.2 ==> r.vz == JUMP_FORCE * 0.55 && r.speed == p.speed
    ensures kind == Hurdle && p.speed <= 2.2 ==> r == p.(speed := p.speed * 0.35)
    ensures kind == Mud ==> r == p.(speed := p.speed * 0.6, z := -1.5)
    ensures kind == Water ==> r == p.(speed := p.speed * 0.55)
    ensures kind == Gravel ==> r == p.(speed := p.speed * 0.9, heat := p.heat + 0.06)
    ensures kind == OilSlick ==> r.speed == p.speed * 0.98 && r.rotationSpeed == p.rotationSpeed + kick
    ensures kind != Gravel ==> r.heat == p.heat
    ensures r.targetLane != p.targetLane ==>
              kind == OilSlick && r.targetLane == p.targetLane + shift && layout.minLane <= r.targetLane <= layout.maxLane
  {
    match kind
    case Mud => p.(speed := p.speed * 0.6, z := -1.5)
    case Water => p.(speed := p.speed * 0.55)
    case OilSlick =>
      var slid := p.(speed := p.speed * 0.98, rotationSpeed := p.rotationSpeed + kick);
      var newLane := p.targetLane + shift;
      if shift != 0 && layout.minLane <= newLane <= layout.maxLane then slid.(targetLane := newLane) else slid
    case Gravel => p.(speed := p.speed * 0.9, heat := p.heat + 0.06)
    case Bump => Launch(p, JUMP_FORCE * 0.75)
    case BigRamp => Launch(p, JUMP_FORCE * 1.6)
    case Ramp => Launch(p, JUMP_FORCE)
    case Hurdle => if p.speed > 2.2 then Launch(p, JUMP_FORCE * 0.55) else p.(speed := p.speed * 0.35)
  }

  /** The oil slick's draws: the spin kick, then a 5% chance of a lane nudge whose direction is a third draw. */
  function OilSlip(rng: nat -> real, k: nat): (r: (real, int, nat))
    ensures r.1 in {-1, 0, 1}
    ensures r.1 == 0 ==> r.2 == k + 2
    ensures r.1 != 0 ==> r.2 == k + 3
  {
    var kick := (rng(k) - 0.5) * 0.45;
    if rng(k + 1) < 0.05 then (kick, if rng(k + 2) > 0.5 then 1 else -1, k + 3) else (kick, 0, k + 2)
  }

  /**
   * One obstacle of the pass: it acts when the bike is over it on its own
   * lane's row (found from the obstacle's own segment); oil lane nudges are
   * bounded by `layout`, the bike's layout from the start of the tick.
   */
  function ObstacleStep(p: Player, o: Obstacle, segments: seq<TrackSegment>, layout: TrackSegment,
                        rng: nat -> real, k: nat): (r: (Player, nat))
    ensures !ObstacleActs(p, o, LayoutAt(segments, o.x)) ==> r == (p, k)
    ensures o.kind != OilSlick ==> r.1 == k
    ensures o.kind == OilSlick && ObstacleActs(p, o, LayoutAt(segments, o.x)) ==> k + 2 <= r.1 <= k + 3
  {
    if !ObstacleActs(p, o, LayoutAt(segments, o.x)) then (p, k)
    else if o.kind == OilSlick then
      var slip := OilSlip(rng, k);
      (ObstacleEffect(p, OilSlick, layout, slip.0, slip.1), slip.2)
    else (ObstacleEffect(p, o.kind, layout, 0.0, 0), k)
  }

  /** `ObstacleStep` on the tick's track, bike layout and random stream, as the step of the pass. */
  function ObstacleRule(segments: seq<TrackSegment>, layout: TrackSegment, rng: nat -> real): (Player, Obstacle, nat) -> (Player, nat)
  {
    (q, o, c) => ObstacleStep(q, o, segments, layout, rng, c)
  }

  /**
   * The obstacles' forEach: the first `n` obstacles applied with `step` in
   * list order, threading the random-stream cursor.
   */
  function ObstaclePass(p: Player, obstacles: seq<Obstacle>, step: (Player, Obstacle, nat) -> (Player, nat),
                        k: nat, n: nat): (r: (Player, nat))
    requires n <= |obstacles|
  {
    if n == 0 then (p, k)
    else
      var before := ObstaclePass(p, obstacles, step, k, n - 1);
      step(before.0, obstacles[n - 1], before.1)
  }

  /** A step that never rewinds the cursor and never touches the upgrades. */
  ghost predicate StepAdvances(step: (Player, Obstacle, nat) -> (Player, nat)) {
    forall q: Player, o: Obstacle, c: nat :: c <= step(q, o, c).1 && step(q, o, c).0.upgrades == q.upgrades
  }

  /** A step that keeps a bike's invariants. */
  ghost predicate StepKeepsOk(step: (Player, Obstacle, nat) -> (Player, nat)) {
    forall q: Player, o: Obstacle, c: nat :: PlayerOk(q) ==> PlayerOk(step(q, o, c).0)
  }

  /** A step that leaves a bike in the air, or crashed, as it is and draws nothing. */
  ghost predicate StepSkipsAloft(step: (Player, Obstacle, nat) -> (Player, nat)) {
    forall q: Player, o: Obstacle, c: nat :: q.isJumping || q.isCrashed ==> step(q, o, c) == (q, c)
  }

  /**
   * A step that keeps position, crash state and count, combo, score and
   * upgrades, never raises the speed, and keeps the target lane within
   * `layout`'s lanes.
   */
  ghost predicate StepFrames(step: (Player, Obstacle, nat) -> (Player, nat), layout: TrackSegment) {
    forall q: Player, o: Obstacle, c: nat ::
      var r := step(q, o, c).0;
      && r.x == q.x && r.y == q.y && r.isCrashed == q.isCrashed && r.crashCount == q.crashCount
      && r.comboMultiplier == q.comboMultiplier && r.score == q.score && r.upgrades == q.upgrades
      && (q.speed >= 0.0 ==> 0.0 <= r.speed <= q.speed)
      && (layout.minLane <= q.targetLane <= layout.maxLane ==> layout.minLane <= r.targetLane <= layout.maxLane)
  }

  /** The obstacle step only advances the cursor and keeps the upgrades. */
  lemma RuleAdvances(segments: seq<TrackSegment>, layout: TrackSegment, rng: nat -> real)
    ensures StepAdvances(ObstacleRule(segments, layout, rng))
  {
    var step := ObstacleRule(segments, layout, rng);
    forall q: Player, o: Obstacle, c: nat
      ensures c <= step(q, o, c).1 && step(q, o, c).0.upgrades == q.upgrades
    {
      assert step(q, o, c) == ObstacleStep(q, o, segments, layout, rng, c);
    }
  }

  /** The obstacle step keeps a bike's invariants: speed and heat stay nonnegative, a jump starts with no rotation. */
  lemma RuleKeepsOk(segments: seq<TrackSegment>, layout: TrackSegment, rng: nat -> real)
    ensures StepKeepsOk(ObstacleRule(segments, layout, rng))
  {
    var step := ObstacleRule(segments, layout, rng);
    forall q: Player, o: Obstacle, c: nat | PlayerOk(q)
      ensures PlayerOk(step(q, o, c).0)
    {
      assert step(q, o, c) == ObstacleStep(q, o, segments, layout, rng, c);
    }
  }

  /** No obstacle acts on a bike in the air or crashed, and none draws for it. */
  lemma RuleSkipsAloft(segments: seq<TrackSegment>, layout: TrackSegment, rng: nat -> real)
    ensures StepSkipsAloft(ObstacleRule(segments, layout, rng))
  {
    var step := ObstacleRule(segments, layout, rng);
    forall q: Player, o: Obstacle, c: nat | q.isJumping || q.isCrashed
      ensures step(q, o, c) == (q, c)
    {
      assert step(q, o, c) == ObstacleStep(q, o, segments, layout, rng, c);
    }
  }

  /** What one obstacle never touches, and the speed and lane bounds it keeps. */
  lemma RuleFrames(segments: seq<TrackSegment>, layout: TrackSegment, rng: nat -> real)
    ensures StepFrames(ObstacleRule(segments, layout, rng), layout)
  {
    var step := ObstacleRule(segments, layout, rng);
    forall q: Player, o: Obstacle, c: nat
      ensures var r := step(q, o, c).0;
              && r.x == q.x && r.y == q.y && r.isCrashed == q.isCrashed && r.crashCount == q.crashCount
              && r.comboMultiplier == q.comboMultiplier && r.score == q.score && r.upgrades == q.upgrades
              && (q.speed >= 0.0 ==> 0.0 <= r.speed <= q.speed)
              && (layout.minLane <= q.targetLane <= layout.maxLane ==> layout.minLane <= r.targetLane <= layout.maxLane)
    {
      assert step(q, o, c) == ObstacleStep(q, o, segments, layout, rng, c);
    }
  }

  /** A pass of such steps only advances the cursor and keeps the upgrades. */
  lemma {:induction false} ObstaclePassAdvances(p: Player, obstacles: seq<Obstacle>,
                                               step: (Player, Obstacle, nat) -> (Player, nat), k: nat, n: nat)
    requires n <= |obstacles| && StepAdvances(step)
    ensures k <= ObstaclePass(p, obstacles, step, k, n).1
    ensures ObstaclePass(p, obstacles, step, k, n).0.upgrades == p.upgrades
  {
    if n > 0 {
      ObstaclePassAdvances(p, obstacles, step, k, n - 1);
    }
  }

  /** A pass of steps that keep a bike's invariants keeps them. */
  lemma {:induction false} ObstaclePassKeepsOk(p: Player, obstacles: seq<Obstacle>,
                                              step: (Player, Obstacle, nat) -> (Player, nat), k: nat, n: nat)
    requires n <= |obstacles| && PlayerOk(p) && StepKeepsOk(step)
    ensures PlayerOk(ObstaclePass(p, obstacles, step, k, n).0)
  {
    if n > 0 {
      ObstaclePassKeepsOk(p, obstacles, step, k, n - 1);
    }
  }

  /** A bike in the air, or crashed, passes every obstacle untouched and draws nothing. */
  lemma {:induction false} NoObstacleActsAloft(p: Player, obstacles: seq<Obstacle>,
                                              step: (Player, Obstacle, nat) -> (Player, nat), k: nat, n: nat)
    requires n <= |obstacles| && (p.isJumping || p.isCrashed) && StepSkipsAloft(step)
    ensures ObstaclePass(p, obstacles, step, k, n) == (p, k)
  {
    if n > 0 {
      NoObstacleActsAloft(p, obstacles, step, k, n - 1);
    }
  }

  /** Once an obstacle has launched the bike, the obstacles after it in the list leave it as it is. */
  lemma {:induction false} JumpEndsObstaclePass(p: Player, obstacles: seq<Obstacle>,
                                               step: (Player, Obstacle, nat) -> (Player, nat), k: nat, i: nat, n: nat)
    requires i <= n <= |obstacles| && StepSkipsAloft(step)
    requires ObstaclePass(p, obstacles, step, k, i).0.isJumping
    ensures ObstaclePass(p, obstacles, step, k, n) == ObstaclePass(p, obstacles, step, k, i)
  {
    if n > i {
      JumpEndsObstaclePass(p, obstacles, step, k, i, n - 1);
    }
  }

  /**
   * What the pass never touches: position, crash state and counters, combo,
   * score and upgrades; speed never rises and the target lane stays within
   * the layout's lanes.
   */
  lemma {:induction false} ObstaclePassFrame(p: Player, obstacles: seq<Obstacle>,
                                            step: (Player, Obstacle, nat) -> (Player, nat), layout: TrackSegment,
                                            k: nat, n: nat)
    requires n <= |obstacles| && StepFrames(step, layout)
    ensures var q := ObstaclePass(p, obstacles, step, k, n).0;
            q.x == p.x && q.y == p.y && q.isCrashed == p.isCrashed && q.crashCount == p.crashCount &&
            q.comboMultiplier == p.comboMultiplier && q.score == p.score && q.upgrades == p.upgrades
    ensures var q := ObstaclePass(p, obstacles, step, k, n).0;
            p.speed >= 0.0 ==> 0.0 <= q.speed <= p.speed
    ensures var q := ObstaclePass(p, obstacles, step, k, n).0;
            layout.minLane <= p.targetLane <= layout.maxLane ==> layout.minLane <= q.targetLane <= layout.maxLane
  {
    if n > 0 {
      ObstaclePassFrame(p, obstacles, step, layout, k, n - 1);
    }
  }
}

=== FILE: race.dfy ===
/**
 * The race held by the game canvas: track, obstacles, AI riders, bikes, held
 * keys and the frame counter, gathered into one object whose methods are the
 * canvas's handlers. The canvas's props (mode, peer link, theme, stage and
 * the random stream) are fixed for its lifetime; `gameState` is read fresh
 * on every call and so is a parameter.
 */
module Race {
  import opened Constants
  import opened Types
  import opened Layout
  import opened TrackGen
  import opened Physics
  import opened Collision
  import opened NpcControl
  import opened Tick

  /** The bike the camera follows: bike 1 on an online joiner (or an online game with no link yet), else bike 0. */
  function MainIndex(mode: GameMode, link: Link): (i: nat)
    ensures i == 1 <==> mode == Online && !(link.Linked? && link.isHost)
  {
    if mode == Online && !(link.Linked? && link.isHost) then 1 else 0
  }

  /** AI riders are simulated offline and on the host only. */
  predicate RunsNpcs(mode: GameMode, link: Link) {
    mode != Online || (link.Linked? && link.isHost)
  }

  /**
   * The AI riders after the frame's rider pass, with the random-stream
   * cursor: moved relative to the camera bike `main` offline or on the host,
   * left as they are on the joiner, whose riders come from the host.
   */
  function RidersAfter(mode: GameMode, link: Link, npcs: seq<NPC>, segments: seq<TrackSegment>, main: Player,
                       frame: int, obstacles: seq<Obstacle>, rng: nat -> real, drawn: nat): (r: (seq<NPC>, nat))
    ensures |r.0| == |npcs|
    ensures !RunsNpcs(mode, link) ==> r == (npcs, drawn)
  {
    if RunsNpcs(mode, link) then NpcPass(npcs, RiderStep(segments, main.x - 60.0, main, frame, obstacles, rng), drawn, |npcs|)
    else (npcs, drawn)
  }

  /** Only an online game whose peer is the host leaves track building to the peer. */
  predicate IsJoiner(mode: GameMode, link: Link) {
    mode == Online && link.Linked? && !link.isHost
  }

  /** The index of the peer's bike in an online game. */
  function RemoteIndex(link: Link): (i: nat)
    requires link.Linked?
    ensures IsRemote(Online, link, i)
  {
    if link.isHost then 1 else 0
  }

  /**
   * Whether the garage's upgrades are copied onto bike `index`: every bike
   * offline; online, bike 0 on the host and bike 1 otherwise (also before a
   * link exists).
   */
  predicate TakesUpgrades(mode: GameMode, link: Link, index: int) {
    mode != Online || (link.Linked? && link.isHost && index == 0) || (!(link.Linked? && link.isHost) && index == 1)
  }

  /** Two bikes on the start line for every mode but single-player, which has one. */
  function StartingGrid(mode: GameMode, upgrades: Option<BikeUpgrades>): (ps: seq<Player>)
    ensures |ps| == if mode == Single then 1 else 2
    ensures forall i :: 0 <= i < |ps| ==> ps[i] == CreatePlayer(i, upgrades)
  {
    if mode == Single then [CreatePlayer(0, upgrades)] else [CreatePlayer(0, upgrades), CreatePlayer(1, upgrades)]
  }

  /** Overwriting the first element after a prefix extends the prefix. */
  lemma Splice<T>(done: seq<T>, rest: seq<T>, x: T)
    requires |rest| > 0
    ensures (done + rest)[|done| := x] == (done + [x]) + rest[1..]
  {
    assert forall j :: 0 <= j < |done| + |rest| ==> (done + rest)[|done| := x][j] == ((done + [x]) + rest[1..])[j];
  }

  class RaceState {
    const mode: GameMode
    const link: Link
    const theme: StageTheme
    const stageIndex: int
    /** Math.random(): draw `drawn` is the next one used. */
    const rng: nat -> real

    var segments: seq<TrackSegment>
    var obstacles: seq<Obstacle>
    var npcs: seq<NPC>
    var players: seq<Player>
    var keys: set<string>
    var frame: int
    var drawn: nat

    /**
     * Draws lie in [0,1), the stage is one of the four, the track is in
     * order, and every bike simulated here keeps its invariants.
     */
    ghost predicate Valid()
      reads this
    {
      && UnitStream(rng)
      && 0 <= stageIndex <= 3
      && Sorted(segments)
      && frame >= 0
      && forall i :: 0 <= i < |players| && !IsRemote(mode, link, i) ==> PlayerOk(players[i])
    }

    /** The canvas mounts: the grid for the mode, nothing built, no keys held, frame zero. */
    constructor(mode: GameMode, link: Link, theme: StageTheme, stageIndex: int, upgrades: Option<BikeUpgrades>,
                rng: nat -> real)
      requires UnitStream(rng) && 0 <= stageIndex <= 3
      requires upgrades.Some? ==> TiersInRange(upgrades.value)
      ensures Valid()
      ensures this.mode == mode && this.link == link && this.theme == theme && this.stageIndex == stageIndex
      ensures this.rng == rng
      ensures players == StartingGrid(mode, upgrades)
      ensures segments == [] && obstacles == [] && npcs == [] && keys == {} && frame == 0 && drawn == 0
    {
      this.mode := mode;
      this.link := link;
      this.theme := theme;
      this.stageIndex := stageIndex;
      this.rng := rng;
      segments, obstacles, npcs := [], [], [];
      players := StartingGrid(mode, upgrades);
      keys := {};
      frame, drawn := 0, 0;
    }

    /** A key goes down. */
    method KeyDown(code: string)
      modifies this
      ensures keys == old(keys) + {code}
      ensures players == old(players) && npcs == old(npcs) && segments == old(segments) && obstacles == old(obstacles)
      ensures frame == old(frame) && drawn == old(drawn)
    {
      keys := keys + {code};
    }

    /** A key comes up. */
    method KeyUp(code: string)
      modifies this
      ensures keys == old(keys) - {code}
      ensures players == old(players) && npcs == old(npcs) && segments == old(segments) && obstacles == old(obstacles)
      ensures frame == old(frame) && drawn == old(drawn)
    {
      keys := keys - {code};
    }

    /**
     * The upgrades effect: the garage's upgrades are copied onto each local
     * bike, and an online game with a peer sends a snapshot of its own bike.
     */
    method SyncUpgrades(u: BikeUpgrades) returns (sent: Option<Message>)
      requires Valid() && TiersInRange(u)
      modifies this
      ensures Valid()
      ensures |players| == |old(players)|
      ensures forall i :: 0 <= i < |players| ==>
                players[i] == if TakesUpgrades(mode, link, i) then old(players)[i].(upgrades := u) else old(players)[i]
      ensures npcs == old(npcs) && segments == old(segments) && obstacles == old(obstacles)
      ensures keys == old(keys) && frame == old(frame) && drawn == old(drawn)
      ensures var mine := if link.Linked? && link.isHost then 0 else 1;
              sent == if mode == Online && link.Linked? && mine < |players|
                      then Some(SyncState(players[mine])) else None
    {
      if |players| == 0 {
        return None;
      }
      for i := 0 to |players|
        invariant Valid() && |players| == |old(players)|
        invariant forall j :: 0 <= j < |players| ==>
                    players[j] == if j < i && TakesUpgrades(mode, link, j) then old(players)[j].(upgrades := u) else old(players)[j]
        invariant npcs == old(npcs) && segments == old(segments) && obstacles == old(obstacles)
        invariant keys == old(keys) && frame == old(frame) && drawn == old(drawn)
      {
        if TakesUpgrades(mode, link, i) {
          players := players[i := players[i].(upgrades := u)];
        }
      }
      var mine := if link.Linked? && link.isHost then 0 else 1;
      if mode == Online && link.Linked? && mine < |players| {
        sent := Some(SyncState(players[mine]));
      } else {
        sent := None;
      }
    }

    /**
     * generateTrack: an online joiner builds nothing and waits for the host's
     * track. Anyone else builds segments, obstacles and the four AI riders,
     * and the host sends them to its peer.
     */
    method GenerateTrack() returns (sent: Option<Message>)
      requires Valid()
      modifies this
      ensures Valid()
      ensures players == old(players) && keys == old(keys) && frame == old(frame)
      ensures IsJoiner(mode, link) ==>
                segments == old(segments) && obstacles == old(obstacles) && npcs == old(npcs) &&
                drawn == old(drawn) && sent.None?
      ensures !IsJoiner(mode, link) ==>
                SegmentsWellFormed(segments, stageIndex) && ObstaclesWellFormed(obstacles, segments, stageIndex) &&
                |npcs| == 4 && (forall i :: 0 <= i < 4 ==> RosterEntry(npcs[i], i, stageIndex)) && drawn >= old(drawn)
      ensures sent == if mode == Online && link.Linked? && link.isHost then Some(InitTrack(segments, obstacles, npcs)) else None
    {
      if IsJoiner(mode, link) {
        return None;
      }
      var k;
      segments, obstacles, npcs, k := TrackGen.GenerateTrack(stageIndex, theme, rng, drawn);
      drawn := k;
      if mode == Online && link.Linked? && link.isHost {
        sent := Some(InitTrack(segments, obstacles, npcs));
      } else {
        sent := None;
      }
    }

    /**
     * handleData, registered on an online game with a peer: INIT_TRACK
     * replaces track, obstacles and riders verbatim; SYNC_STATE overwrites the
     * peer's bike, when there is one.
     */
    method HandleData(msg: Message)
      requires Valid() && mode == Online && link.Linked?
      requires msg.InitTrack? ==> Sorted(msg.segments)
      modifies this
      ensures Valid()
      ensures keys == old(keys) && frame == old(frame) && drawn == old(drawn)
      ensures msg.InitTrack? ==>
                segments == msg.segments && obstacles == msg.obstacles && npcs == msg.npcs && players == old(players)
      ensures msg.SyncState? ==>
                segments == old(segments) && obstacles == old(obstacles) && npcs == old(npcs) &&
                players == if RemoteIndex(link) < |old(players)| then old(players)[RemoteIndex(link) := msg.state] else old(players)
    {
      match msg
      case InitTrack(s, o, n) =>
        segments, obstacles, npcs := s, o, n;
      case SyncState(state) =>
        var remote := RemoteIndex(link);
        if remote < |players| {
          players := players[remote := state];
        }
    }

    /** The obstacle pass of a bike's tick, in list order; oil draws come from the stream. */
    method ApplyObstacles(p: Player, layout: TrackSegment) returns (q: Player, k: nat)
      requires Sorted(segments)
      ensures (q, k) == ObstaclePass(p, obstacles, ObstacleRule(segments, layout, rng), drawn, |obstacles|)
    {
      ghost var step := ObstacleRule(segments, layout, rng);
      q, k := p, drawn;
      for i := 0 to |obstacles|
        invariant (q, k) == ObstaclePass(p, obstacles, step, drawn, i)
      {
        q, k := HitObstacle(q, obstacles[i], layout, k);
      }
    }

    /** One obstacle of the pass, from draw `k` of the stream. */
    method HitObstacle(p: Player, obs: Obstacle, layout: TrackSegment, k: nat) returns (q: Player, k': nat)
      requires Sorted(segments)
      ensures (q, k') == ObstacleStep(p, obs, segments, layout, rng, k)
    {
      q, k' := p, k;
      var obsLayout := GetTrackLayoutAt(segments, obs.x);
      var acts := Abs(p.x - obs.x) < 10.0 && Abs(p.y - LaneCentre(obs.lane, obsLayout.yOffset)) < 7.0 &&
                  !p.isJumping && !p.isCrashed;
      assert acts == ObstacleActs(p, obs, LayoutAt(segments, obs.x));
      if acts {
        if obs.kind == OilSlick {
          var kick := (rng(k) - 0.5) * 0.45;
          var shift := 0;
          if rng(k + 1) < 0.05 {
            shift := if rng(k + 2) > 0.5 then 1 else -1;
            k' := k + 3;
          } else {
            k' := k + 2;
          }
          assert (kick, shift, k') == OilSlip(rng, k);
          q := ObstacleEffect(p, OilSlick, layout, kick, shift);
        } else {
          q := ObstacleEffect(p, obs.kind, layout, 0.0, 0);
        }
      }
    }

    /** A simulated bike's tick, in place: the state afterwards is the one PlayerTick gives. */
    method RunBike(index: nat) returns (report: Option<seq<RaceResult>>)
      requires Sorted(segments) && index < |players| && TiersInRange(players[index].upgrades)
      modifies this
      ensures segments == old(segments) && obstacles == old(obstacles) && frame == old(frame)
      ensures Outcome(Frame(players, npcs, keys, drawn), report) ==
              PlayerTick(Frame(old(players), old(npcs), old(keys), old(drawn)), index, segments, obstacles, theme == Storm, rng)
    {
      var layout := GetTrackLayoutAt(segments, players[index].x);
      RideAndCollide(index);
      if players[index].score >= STAGE_LENGTH {
        report := Some(Results(players));
      } else {
        report := None;
      }
      var c := ControlsFor(index);
      var p := AirStep(players[index], c.left in keys, c.right in keys);
      var k;
      p, k := ApplyObstacles(p, layout);
      players, drawn := players[index := p], k;
    }

    /** The first half of a bike's tick, in place: the ride, then the collision pass of checkEntityCollisions. */
    method RideAndCollide(index: nat)
      requires Sorted(segments) && index < |players| && TiersInRange(players[index].upgrades)
      modifies this
      ensures segments == old(segments) && obstacles == old(obstacles) && frame == old(frame)
      ensures Frame(players, npcs, keys, drawn) ==
              Collided(Frame(old(players), old(npcs), old(keys), old(drawn)), index, segments, theme == Storm)
    {
      var p := players[index];
      var layout := GetTrackLayoutAt(segments, p.x);
      var ride := Ride(p, layout, keys, ControlsFor(index), theme == Storm);
      p, keys := ride.0, ride.1;
      var ps, ns := CheckEntityCollisions(players[index := p], npcs, index);
      CollideMatches(players[index := p], npcs, index, ps, ns);
      players, npcs := ps, ns;
    }

    /**
     * updatePlayer: nothing unless the race is being played and the bike is
     * simulated here; otherwise the bike's tick, then a snapshot of it on
     * even frames of an online game.
     */
    method UpdatePlayer(gameState: GameState, index: nat) returns (report: Option<seq<RaceResult>>, sent: Option<Message>)
      requires Valid() && index < |players|
      modifies this
      ensures Valid()
      ensures segments == old(segments) && obstacles == old(obstacles) && frame == old(frame)
      ensures gameState != Playing ==>
                players == old(players) && npcs == old(npcs) && keys == old(keys) && drawn == old(drawn) &&
                report.None? && sent.None?
      ensures gameState == Playing ==>
                TurnTaken(Frame(old(players), old(npcs), old(keys), old(drawn)), Frame(players, npcs, keys, drawn),
                          report, sent, index, mode, link, frame, segments, obstacles, theme == Storm, rng)
    {
      if gameState != Playing || IsRemote(mode, link, index) {
        return None, None;
      }
      ghost var start := Frame(players, npcs, keys, drawn);
      assert forall j :: 0 <= j < |players| && !IsRemote(mode, link, j) ==> PlayerOk(start.players[j]);
      report := RunBike(index);
      if mode == Online && link.Linked? && frame % 2 == 0 {
        sent := Some(SyncState(players[index]));
      } else {
        sent := None;
      }
      PlayerTickKeepsOk(start, index, segments, obstacles, theme == Storm, rng);
    }

    /** A rider's ramp pass, in obstacle order. */
    method NpcRamps(n: NPC) returns (r: NPC)
      ensures r == RampPass(n, obstacles, |obstacles|)
    {
      r := n;
      for i := 0 to |obstacles|
        invariant r == RampPass(n, obstacles, i)
      {
        var obs := obstacles[i];
        if Abs(r.x - obs.x) < 5.0 && r.lane == obs.lane && !r.isJumping {
          if obs.kind == Ramp || obs.kind == BigRamp || obs.kind == Bump {
            r := NpcLaunch(r, obs.kind);
          }
        }
      }
    }

    /** One AI rider's tick, from draw `k` of the stream. */
    method MoveRider(n: NPC, camX: real, main: Player, k: nat) returns (r: NPC, k': nat)
      requires Sorted(segments)
      ensures (r, k') == NpcStep(n, segments, camX, main, frame, obstacles, rng, k)
    {
      var layout := GetTrackLayoutAt(segments, n.x);
      var recycled := Recycle(n, camX, rng, k);
      r, k' := recycled.0, recycled.1;
      if r.isCrashed {
        r := Recover(r);
      } else {
        var driven := Drive(r, layout, main, frame, rng, k');
        r := NpcRamps(driven.0);
        k' := driven.1;
      }
    }

    /** The AI riders' block of `update`, rider by rider in list order. */
    method UpdateNpcs(camX: real, main: Player)
      requires Valid()
      modifies this
      ensures Valid()
      ensures players == old(players) && keys == old(keys) && frame == old(frame)
      ensures segments == old(segments) && obstacles == old(obstacles)
      ensures (npcs, drawn) == NpcPass(old(npcs), RiderStep(segments, camX, main, frame, obstacles, rng), old(drawn), |old(npcs)|)
    {
      ghost var start, k0 := npcs, drawn;
      ghost var step := RiderStep(segments, camX, main, frame, obstacles, rng);
      var count := |npcs|;
      for i := 0 to count
        invariant Valid() && |start| == count
        invariant players == old(players) && keys == old(keys) && frame == old(frame)
        invariant segments == old(segments) && obstacles == old(obstacles)
        invariant var done := NpcPass(start, step, k0, i);
                  npcs == done.0 + start[i..] && drawn == done.1
      {
        ghost var done := NpcPass(start, step, k0, i);
        ghost var rest := start[i..];
        assert npcs[i] == start[i];
        var n, k := MoveRider(npcs[i], camX, main, drawn);
        Splice(done.0, rest, n);
        assert rest[1..] == start[i + 1..];
        npcs, drawn := npcs[i := n], k;
      }
      assert start[count..] == [];
      assert npcs == NpcPass(start, step, k0, count).0;
    }

    /**
     * The rider half of `update`: offline and on the host the AI riders move
     * relative to the camera bike `main`; on the joiner they stay as the host
     * last sent them.
     */
    method MoveRiders(main: Player)
      requires Valid()
      modifies this
      ensures Valid()
      ensures players == old(players) && keys == old(keys) && frame == old(frame)
      ensures segments == old(segments) && obstacles == old(obstacles)
      ensures (npcs, drawn) == RidersAfter(mode, link, old(npcs), segments, main, frame, obstacles, rng, old(drawn))
    {
      if RunsNpcs(mode, link) {
        UpdateNpcs(main.x - 60.0, main);
      }
    }

    /**
     * The forEach over the bikes: each bike, in list order, takes its turn
     * of updatePlayer. Track, obstacles and frame counter stay as they are.
     */
    method TakeTurns() returns (reports: seq<Option<seq<RaceResult>>>, sent: seq<Option<Message>>, ghost trace: seq<Frame>)
      requires Valid()
      modifies this
      ensures Valid()
      ensures segments == old(segments) && obstacles == old(obstacles) && frame == old(frame)
      ensures |reports| == |old(players)|
      ensures TurnsTaken(trace, reports, sent, mode, link, frame, segments, obstacles, theme == Storm, rng)
      ensures trace[0] == Frame(old(players), old(npcs), old(keys), old(drawn))
      ensures trace[|old(players)|] == Frame(players, npcs, keys, drawn)
    {
      reports, sent, trace := [], [], [Frame(players, npcs, keys, drawn)];
      var count := |players|;
      for i := 0 to count
        invariant Valid()
        invariant |players| == count
        invariant segments == old(segments) && obstacles == old(obstacles) && frame == old(frame)
        invariant |trace| == i + 1 && |reports| == i && |sent| == i
        invariant trace[0] == Frame(old(players), old(npcs), old(keys), old(drawn))
        invariant trace[i] == Frame(players, npcs, keys, drawn)
        invariant forall t :: 0 <= t < i ==>
                    TurnTaken(trace[t], trace[t + 1], reports[t], sent[t], t, mode, link, frame,
                              segments, obstacles, theme == Storm, rng)
      {
        var report, msg := UpdatePlayer(Playing, i);
        reports, sent := reports + [report], sent + [msg];
        trace := trace + [Frame(players, npcs, keys, drawn)];
      }
    }

    /**
     * update: when the race is being played and has bikes, the frame
     * advances; if the camera's bike exists, the AI riders move (offline or
     * on the host) and then every bike takes its turn in order. `trace`
     * holds the state before each turn and after the last.
     */
    method Tick(gameState: GameState)
        returns (reports: seq<Option<seq<RaceResult>>>, sent: seq<Option<Message>>, ghost trace: seq<Frame>)
      requires Valid()
      modifies this
      ensures Valid()
      ensures segments == old(segments) && obstacles == old(obstacles)
      ensures gameState != Playing || |old(players)| == 0 ==>
                frame == old(frame) && players == old(players) && npcs == old(npcs) && keys == old(keys) &&
                drawn == old(drawn) && reports == [] && sent == []
      ensures gameState == Playing && |old(players)| > 0 ==> frame == old(frame) + 1
      ensures gameState == Playing && 0 < |old(players)| <= MainIndex(mode, link) ==>
                players == old(players) && npcs == old(npcs) && keys == old(keys) && drawn == old(drawn) &&
                reports == [] && sent == []
      ensures gameState == Playing && MainIndex(mode, link) < |old(players)| ==>
                var main := old(players)[MainIndex(mode, link)];
                var riders := RidersAfter(mode, link, old(npcs), old(segments), main, old(frame) + 1, old(obstacles), rng, old(drawn));
                && |reports| == |old(players)|
                && TurnsTaken(trace, reports, sent, mode, link, frame, segments, obstacles, theme == Storm, rng)
                && trace[0] == Frame(old(players), riders.0, old(keys), riders.1)
                && trace[|old(players)|] == Frame(players, npcs, keys, drawn)
    {
      reports, sent, trace := [], [], [];
      if gameState != Playing || |players| == 0 {
        return;
      }
      var mainIndex := MainIndex(mode, link);
      if mainIndex >= |players| {
        frame := frame + 1;
        return;
      }
      frame := frame + 1;
      MoveRiders(players[mainIndex]);
      reports, sent, trace := TakeTurns();
    }
  }
}

=== FILE: tick.dfy ===
/**
 * One bike's tick (updatePlayer) as a function of the race state it reads
 * and writes, and the pass over every bike in list order. The race-state
 * class is proved against these.
 */
module Tick {
  import opened Constants
  import opened Types
  import opened Layout
  import opened Physics
  import opened Collision

  /** The parts of the race state a bike's tick changes. */
  datatype Frame = Frame(players: seq<Player>, npcs: seq<NPC>, keys: set<string>, drawn: nat)

  /** A bike's tick: the new state and the level-complete report, if one was made. */
  datatype Outcome = Outcome(frame: Frame, report: Option<seq<RaceResult>>)

  /** The result list handed to onLevelComplete: every bike's score and crash count, in order. */
  function Results(players: seq<Player>): (r: seq<RaceResult>)
    ensures |r| == |players|
    ensures forall i :: 0 <= i < |players| ==> r[i] == RaceResult(players[i].score, players[i].crashCount)
  {
    seq(|players|, i requires 0 <= i < |players| => RaceResult(players[i].score, players[i].crashCount))
  }

  /** On an online game the bike at the remote index is the peer's and is never simulated here. */
  predicate IsRemote(mode: GameMode, link: Link, index: int) {
    mode == Online && link.Linked? && ((link.isHost && index == 1) || (!link.isHost && index == 0))
  }

  /**
   * The ground-level steps of a bike's tick before the collision pass: lane
   * intent from the held keys, steering, propulsion and the advance along
   * the track. Returns the bike and the keys left held.
   */
  function Ride(p: Player, layout: TrackSegment, keys: set<string>, c: Controls, storm: bool): (r: (Player, set<string>))
    requires c.up != c.down && TiersInRange(p.upgrades)
    ensures r.1 <= keys && r.0.upgrades == p.upgrades
  {
    var intent := LaneIntent(p, layout, keys, c);
    var steered := Steer(intent.0, layout, storm);
    var propelled := Propel(steered, c.gas in intent.1, c.turbo in intent.1, storm);
    (Advance(propelled), intent.1)
  }

  /**
   * updatePlayer for a simulated bike: lane intent, steering, propulsion,
   * advance, the collision pass, the level-complete check on the resulting
   * state, flight or ground step, and the obstacle pass, in that order. All
   * lane bounds of the tick come from the layout at the bike's starting x.
   */
  function PlayerTick(f: Frame, index: nat, segments: seq<TrackSegment>, obstacles: seq<Obstacle>,
                      storm: bool, rng: nat -> real): (r: Outcome)
    requires index < |f.players| && TiersInRange(f.players[index].upgrades)
    ensures |r.frame.players| == |f.players| && |r.frame.npcs| == |f.npcs|
    ensures forall j :: 0 <= j < |f.players| ==> r.frame.players[j].upgrades == f.players[j].upgrades
    ensures r.frame.keys <= f.keys && f.drawn <= r.frame.drawn
  {
    var hit := Collided(f, index, segments, storm);
    var report := if hit.players[index].score >= STAGE_LENGTH then Some(Results(hit.players)) else None;
    var c := ControlsFor(index);
    var aloft := AirStep(hit.players[index], c.left in hit.keys, c.right in hit.keys);
    var step := ObstacleRule(segments, LayoutAt(segments, f.players[index].x), rng);
    RuleAdvances(segments, LayoutAt(segments, f.players[index].x), rng);
    ObstaclePassAdvances(aloft, obstacles, step, f.drawn, |obstacles|);
    var pass := ObstaclePass(aloft, obstacles, step, f.drawn, |obstacles|);
    Outcome(Frame(hit.players[index := pass.0], hit.npcs, hit.keys, pass.1), report)
  }

  /**
   * The first half of a bike's tick: the ride (lane intent to advance) on the
   * layout at the bike's x, then the collision pass. No draw is taken.
   */
  function Collided(f: Frame, index: nat, segments: seq<TrackSegment>, storm: bool): (r: Frame)
    requires index < |f.players| && TiersInRange(f.players[index].upgrades)
    ensures |r.players| == |f.players| && |r.npcs| == |f.npcs|
    ensures forall j :: 0 <= j < |f.players| ==> r.players[j].upgrades == f.players[j].upgrades
    ensures r.keys <= f.keys && r.drawn == f.drawn
  {
    var p0 := f.players[index];
    var ride := Ride(p0, LayoutAt(segments, p0.x), f.keys, ControlsFor(index), storm);
    var hit := Collide(f.players[index := ride.0], f.npcs, index);
    Frame(hit.0, hit.1, ride.1, f.drawn)
  }

  /** Every step of the tick keeps a bike's invariants. */
  lemma StepsKeepOk(p: Player, layout: TrackSegment, keys: set<string>, c: Controls, storm: bool,
                    gas: bool, turbo: bool, left: bool, right: bool)
    requires PlayerOk(p) && c.up != c.down
    ensures PlayerOk(LaneIntent(p, layout, keys, c).0)
    ensures PlayerOk(Steer(p, layout, storm))
    ensures PlayerOk(Propel(p, gas, turbo, storm))
    ensures PlayerOk(Advance(p))
    ensures PlayerOk(AirStep(p, left, right))
  {
    if p.isJumping {
      var flown := Fly(p, left, right);
      assert PlayerOk(flown);
      var landed := Land(flown);
      assert landed.totalJumpRotation == 0.0 && landed.flipsInCurrentJump == 0;
      assert FlipsIn(0.0) == 0;
    }
  }

  /**
   * A bike's tick keeps the invariants of every bike that had them: speed and
   * heat nonnegative, combo at least one, flips counted from the total
   * rotation, no rotation on the ground.
   */
  lemma PlayerTickKeepsOk(f: Frame, index: nat, segments: seq<TrackSegment>, obstacles: seq<Obstacle>,
                          storm: bool, rng: nat -> real)
    requires index < |f.players| && PlayerOk(f.players[index])
    ensures var r := PlayerTick(f, index, segments, obstacles, storm, rng);
            forall j :: 0 <= j < |f.players| && PlayerOk(f.players[j]) ==> PlayerOk(r.frame.players[j])
  {
    var hit := Collided(f, index, segments, storm);
    CollidedKeepsOk(f, index, segments, storm);
    var c := ControlsFor(index);
    var layout := LayoutAt(segments, f.players[index].x);
    var aloft := AirStep(hit.players[index], c.left in hit.keys, c.right in hit.keys);
    StepsKeepOk(hit.players[index], layout, hit.keys, c, storm, false, false, c.left in hit.keys, c.right in hit.keys);
    RuleKeepsOk(segments, layout, rng);
    ObstaclePassKeepsOk(aloft, obstacles, ObstacleRule(segments, layout, rng), f.drawn, |obstacles|);
  }

  /** The ride and the collision pass keep the invariants of every bike that had them. */
  lemma CollidedKeepsOk(f: Frame, index: nat, segments: seq<TrackSegment>, storm: bool)
    requires index < |f.players| && PlayerOk(f.players[index])
    ensures var r := Collided(f, index, segments, storm);
            forall j :: 0 <= j < |f.players| && PlayerOk(f.players[j]) ==> PlayerOk(r.players[j])
  {
    var p0 := f.players[index];
    var layout := LayoutAt(segments, p0.x);
    var c := ControlsFor(index);
    var intent := LaneIntent(p0, layout, f.keys, c);
    var keys := intent.1;
    StepsKeepOk(p0, layout, f.keys, c, storm, false, false, false, false);
    var steered := Steer(intent.0, layout, storm);
    StepsKeepOk(intent.0, layout, keys, c, storm, false, false, false, false);
    var propelled := Propel(steered, c.gas in keys, c.turbo in keys, storm);
    StepsKeepOk(steered, layout, keys, c, storm, c.gas in keys, c.turbo in keys, false, false);
    var advanced := Advance(propelled);
    StepsKeepOk(propelled, layout, keys, c, storm, false, false, false, false);
    assert Ride(p0, layout, f.keys, c, storm) == (advanced, keys);
    var before := f.players[index := advanced];
    CollideOutcome(before, f.npcs, index);
    assert forall j :: 0 <= j < |f.players| && PlayerOk(f.players[j]) ==> PlayerOk(before[j]);
  }

  /**
   * One bike's turn of `playersRef.current.forEach(updatePlayer)`, from
   * `before` to `after`: the peer's bike is skipped; any other bike ticks and,
   * on an online game, sends a snapshot of itself on even frames.
   */
  predicate TurnTaken(before: Frame, after: Frame, report: Option<seq<RaceResult>>, sent: Option<Message>,
                      index: nat, mode: GameMode, link: Link, frameNo: int, segments: seq<TrackSegment>,
                      obstacles: seq<Obstacle>, storm: bool, rng: nat -> real)
  {
    if IsRemote(mode, link, index) then after == before && report.None? && sent.None?
    else
      && index < |before.players| && TiersInRange(before.players[index].upgrades)
      && var out := PlayerTick(before, index, segments, obstacles, storm, rng);
      && after == out.frame && report == out.report
      && sent == if mode == Online && link.Linked? && frameNo % 2 == 0 then Some(SyncState(out.frame.players[index])) else None
  }

  /** Turn `i` of the trace: bike i took its turn from `trace[i]` to `trace[i + 1]`. */
  predicate TurnAt(trace: seq<Frame>, reports: seq<Option<seq<RaceResult>>>, sent: seq<Option<Message>>, i: int,
                   mode: GameMode, link: Link, frameNo: int, segments: seq<TrackSegment>,
                   obstacles: seq<Obstacle>, storm: bool, rng: nat -> real)
  {
    && 0 <= i < |reports| && i < |sent| && i + 1 < |trace|
    && TurnTaken(trace[i], trace[i + 1], reports[i], sent[i], i, mode, link, frameNo, segments, obstacles, storm, rng)
  }

  /**
   * `playersRef.current.forEach(updatePlayer)`: every bike in list order
   * took its turn, `trace[i]` being the state before bike i's turn and
   * `trace[i + 1]` the state after it.
   */
  predicate TurnsTaken(trace: seq<Frame>, reports: seq<Option<seq<RaceResult>>>, sent: seq<Option<Message>>,
                       mode: GameMode, link: Link, frameNo: int, segments: seq<TrackSegment>,
                       obstacles: seq<Obstacle>, storm: bool, rng: nat -> real)
  {
    && |trace| == |reports| + 1 && |sent| == |reports|
    && forall i :: 0 <= i < |reports| ==> TurnAt(trace, reports, sent, i, mode, link, frameNo, segments, obstacles, storm, rng)
  }
}

=== FILE: types.dfy ===
/**
 * Record shapes of the race (types.ts): bikes, AI riders, obstacles and
 * track segments, plus the injected random stream that stands for
 * Math.random().
 */
module Types {
  import opened Constants

  datatype Option<T> = None | Some(value: T)

  datatype GameState = Menu | Lobby | Playing | GameOver | LevelComplete | GarageScreen
  datatype GameMode = Single | TwoPlayer | Online
  datatype StageTheme = Day | Dusk | Night | Storm

  /** The peer link GameCanvas receives: absent, or present with its role. */
  datatype Link = NoLink | Linked(isHost: bool)

  datatype BikeUpgrades = BikeUpgrades(engine: int, cooling: int, turbo: int, color: string)

  datatype Player = Player(
    id: int,
    x: real,
    y: real,
    lane: int,
    targetLane: int,
    speed: real,
    rotation: real,
    rotationSpeed: real,
    totalJumpRotation: real,
    isJumping: bool,
    vz: real,
    z: real,
    heat: real,
    isCrashed: bool,
    crashTimer: int,
    score: int,
    crashCount: int,
    flipsInCurrentJump: int,
    comboMultiplier: int,
    upgrades: BikeUpgrades)

  datatype NPC = NPC(
    id: int,
    x: real,
    y: real,
    lane: int,
    targetLane: int,
    speed: real,
    baseSpeed: real,
    z: real,
    vz: real,
    isJumping: bool,
    color: string,
    isCrashed: bool,
    crashTimer: int)

  /** In declaration order, which is the order `Object.values(ObstacleType)` lists them. */
  datatype ObstacleType = Bump | Ramp | Mud | BigRamp | OilSlick | Hurdle | Water | Gravel

  datatype Obstacle = Obstacle(x: real, lane: int, kind: ObstacleType)

  datatype TrackSegment = TrackSegment(x: real, minLane: int, maxLane: int, yOffset: real)

  /** One entry of the result list handed to onGameOver / onLevelComplete. */
  datatype RaceResult = RaceResult(score: int, crashes: int)

  /** The two application-level peer messages. */
  datatype Message =
    | InitTrack(segments: seq<TrackSegment>, obstacles: seq<Obstacle>, npcs: seq<NPC>)
    | SyncState(state: Player)

  /** Every draw of the injected random stream lies in [0, 1), as Math.random() does. */
  ghost predicate UnitStream(rng: nat -> real) {
    forall i: nat :: 0.0 <= rng(i) < 1.0
  }

  /** Math.max(lo, Math.min(hi, v)). */
  function Clamp(v: int, lo: int, hi: int): (r: int)
    ensures lo <= hi ==> lo <= r <= hi
    ensures lo <= v <= hi ==> r == v
    ensures lo > hi ==> r == lo
  {
    if hi < v then (if lo < hi then hi else lo) else (if lo < v then v else lo)
  }

  /** Math.round: halves round toward positive infinity. */
  function Round(v: real): (r: int)
    ensures v - 0.5 < r as real <= v + 0.5
  {
    (v + 0.5).Floor
  }

  function Abs(v: real): (r: real)
    ensures r >= 0.0 && (r == v || r == -v)
  {
    if v < 0.0 then -v else v
  }

  function MaxReal(a: real, b: real): (r: real)
    ensures r >= a && r >= b && (r == a || r == b)
  {
    if a < b then b else a
  }

  function MinReal(a: real, b: real): (r: real)
    ensures r <= a && r <= b && (r == a || r == b)
  {
    if a < b then a else b
  }

  /** Upgrade tiers that index the upgrade table. */
  predicate TiersInRange(u: BikeUpgrades) {
    0 <= u.engine <= LAST_TIER && 0 <= u.cooling <= LAST_TIER && 0 <= u.turbo <= LAST_TIER
  }

  /** Screen row of a lane's centre on a segment with the given vertical offset. */
  function LaneCentre(lane: int, yOffset: real): real {
    TRACK_TOP + yOffset + lane as real * LANE_HEIGHT + 10.0
  }

  /** `Math.floor(Math.random() * n)` picks one of 0 .. n-1. */
  lemma ScaledDrawInRange(r: real, n: int)
    requires 0.0 <= r < 1.0 && n >= 1
    ensures 0 <= (r * n as real).Floor < n
  {
    assert r * n as real < n as real;
  }
}
